=== FILE: README.md ===
# socodo/cli in Dafny

A model of the core of the PHP library socodo/cli, a small framework for
command-line front ends, with proofs about it. The model covers four parts:

- the `CLI` front end: the split of the argument vector, the command and
  option registries, the built-in help command, and the dispatch of the
  action (`db:migrate`) to a command of the command tree;
- the `Writer`: coloured output, progress bars, and the index sheet that
  lists named items with their descriptions in one column;
- the `HelpCommand`: it lists the commands and options in two sheets of one
  shared width;
- `CommandAbstract`: the name, description and child map of a command.

Everything is modelled as pure functions over immutable values:

- PHP arrays are ordered association lists with unique keys
  (`Assoc.Arr`). Assigning to an existing key overwrites it in place.
  `unset` followed by a re-insert moves the key to the end.
- Terminal output is an explicit writer state `(isCli, isProgress, output)`
  threaded through each call. Echoed text is appended to `output`.
- Thrown errors become result values. A registration that throws is
  `Options.ShorthandTaken` / `Cli.Threw`. A progress bar that throws is
  `None`. An index listing that throws is `Rows(_, false)`, which keeps the
  rows printed before the throw.

Modules, one per concern, in dependency order:

- `Wrappers`: `Option`.
- `Assoc`: PHP arrays.
- `Strings`: `explode`/`implode`, `str_repeat`, integer rendering.
- `Args`: the argument split.
- `Colors`: the colour enumeration.
- `Writer`: write, color, colorize, progress, the shutdown hook.
- `IndexSheet`: `index` and `getMaxNameLengthFromIndex`.
- `Options`: the option registry.
- `Commands`: `CommandAbstract` and the help command's data.
- `Help`: `HelpCommand`.
- `Cli`: `CLI`.

`getName()` is the `name` field of `Commands.Command`, and
`getChildCommands()` is its `children` field.

Three behaviours of the code are easy to misread. The model follows the code in each:

- **The action walk restarts after a miss.** When a segment names no command,
  the code does not give up: it looks up the next segment among the
  top-level commands again (`src/CLI.php:121-125`). So `x:b` runs the
  top-level command `b` (`Cli.MissFindsTopLevelCommand`). `Cli.Walk` is
  this as-written walk, and `Cli.Handle` uses it. `Cli.Resolve` is the
  strict reading, where any miss means no command. `Cli.WalkFindsPaths`
  proves the two agree on every action that is a path in the tree.
- **`index` does not clamp the padding.** A negative padding count reaches
  `str_repeat`, which throws and ends the listing
  (`IndexSheet.NegativePaddingStops`, `IndexSheet.ExampleNarrowWidth`).
  Widths that `getMaxNameLengthFromIndex` computes never get there
  (`IndexSheet.PaddingNeverNegative`).
- **`progress` has no guard.** The model does not require `0 <= current <= max`.
  A zero `max`, or a filled count outside `0..60`, throws. Slightly past
  the end still draws, e.g. `101/100` draws a full bar at 101%.

## Model

| member | source | states |
|---|---|---|
| Assoc.Get | src/Commands/CommandAbstract.php:55-58 | `$a[$k] ?? null`: a value exactly when the key is present, and then the value stored under it |
| Assoc.Put | src/CLI.php:69 | assignment stores the value under the key; other keys keep their values; an existing key keeps its place, a new key is appended |
| Assoc.Remove | src/CLI.php:84-85 | `unset` removes the key, keeps every other key's value, and keeps the order of the rest |
| Assoc.RemovePutMovesToEnd | src/CLI.php:85-102 | unset followed by a re-insert moves the key to the end, the other keys keeping their relative order |
| Strings.Split | src/CLI.php:117 | `explode` yields at least one piece and no piece contains the separator |
| Strings.JoinSplit | src/CLI.php:117 | joining the pieces of `explode` with the separator gives back the original string |
| Strings.SplitJoin | src/CLI.php:117 | `explode` of joined separator-free pieces gives back the pieces |
| Strings.Repeat | src/Writer.php:196 | `str_repeat` of one character: exactly `n` copies of it |
| Strings.NatToStringValue | src/Writer.php:106-107 | the decimal rendering of a natural number is canonical (one or more digits, no leading zero unless it is `0` itself) and reads back as that number |
| Strings.IntToString | src/Writer.php:106-107 | the rendering is PHP's decimal form: canonical digits reading back as the number, preceded by a minus sign exactly when it is negative (so never `-0`) |
| Strings.DecimalUnique | src/Writer.php:106-107 | a number has only one decimal form, so the rendering is pinned down by its contract |
| Args.GetPhpOptions | src/CLI.php:179-194 | the options are a suffix of the arguments, all start with `-`, and the token before them (if any) does not: the longest such suffix, in the original order |
| Args.Parse | src/CLI.php:36-42 | the positional arguments followed by the options reproduce the vector after argument 0; the options all start with `-`; the last positional argument does not |
| Args.SplitIsUnique | src/CLI.php:179-194 | any division of the arguments into a prefix not ending in an option token and a suffix of option tokens is the one the constructor makes |
| Args.ExampleSplit | src/CLI.php:36-42 | `bin/app run build --verbose -x` gives the positional arguments `run build` and the options `--verbose -x` |
| Colors.Code | src/Enums/Colors.php:5-32 | each colour's value is ESC `[` … `m`, at least four characters, and only `Reset` is exactly four |
| Writer.New | src/Writer.php:23-37 | a new writer has printed nothing, has no progress bar, and satisfies the writer invariant |
| Writer.Write | src/Writer.php:45-59 | off the command line nothing changes; on it, an open progress line is first closed with a newline, then the message and a newline are printed, and the progress flag is cleared; the invariant is kept |
| Writer.WriteAll | src/Writer.php:45-59 | successive writes print the open-line newline at most once, then each message with its newline |
| Writer.Colorize | src/Writer.php:80-83 | the colourised text is the colour's code, the message, then the reset code, independent of the writer |
| Writer.WriteColored | src/Writer.php:68-71 | `color` writes exactly the colourised message, with the same state changes as `write` |
| Writer.Filled | src/Writer.php:99 | the filled count is the floor of `60 * current / max`: the integer `f` with `f * max <= 60 * current < (f + 1) * max` (reversed for a negative `max`); for `0 <= current <= max` it lies within `0..60` |
| Writer.Percent | src/Writer.php:100 | the percentage is the floor of `100 * current / max`, characterised the same way; for `0 <= current <= max` it lies within `0..100` |
| Writer.InRangeIsDrawable | src/Writer.php:99-104 | a bar in `0..max` never throws |
| Writer.ProgressLabel | src/Writer.php:105-108 | the label is `] [current/max] (percent%)` and a carriage return, each number in its decimal form; it contains no bar character and no newline |
| Writer.ProgressLine | src/Writer.php:102-108 | the line is `[`, the `filled` full cells in blue, the `60 - filled` empty cells in light gray, then the label `] [current/max] (percent%)` and a carriage return; it holds exactly that many cells of each kind and no newline |
| Writer.Progress | src/Writer.php:92-112 | off the command line nothing changes; on it the bar throws exactly when `max` is zero or the filled count is outside the bar; otherwise the line is echoed and the progress flag set; the invariant is kept |
| Writer.Shutdown | src/Writer.php:30-35 | the hook echoes a newline exactly when a command-line writer has an open progress line, and leaves the line closed |
| Writer.ExampleOvershoot | src/Writer.php:99-104 | `101/100` draws 60 full cells at 101%; `61/60` and a zero maximum throw |
| Writer.ExampleHalfway | src/Writer.php:99-108 | `30/60` is 30 full and 30 empty cells at 50%, and the drawn line ends in `] [30/60] (50%)` and a carriage return |
| IndexSheet.Indent | src/Writer.php:194-197 | `getIndent(k)` is exactly `4k` spaces |
| IndexSheet.Padding | src/Writer.php:137 | the indent, the name and the padding count together are always `maxLength + 4` long, so a name that is longer than its column allows makes the count negative |
| IndexSheet.Width | src/Writer.php:169-177 | an item's width is its name length, or its children's width plus 8 when that is larger |
| IndexSheet.MaxNameLength | src/Writer.php:164-186 | the width is at least every item's width, and 0 for no items |
| IndexSheet.MaxNameLengthAttained | src/Writer.php:164-186 | some item attains the width |
| IndexSheet.NamesFit | src/Writer.php:164-186 | every name at depth `k` below the top, plus `8k`, fits in the width |
| IndexSheet.Prefix | src/Writer.php:134-138 | the text before a description is `maxLength + 6` plus the lengths of the green and reset codes long, whatever the name and indent |
| IndexSheet.PrefixContent | src/Writer.php:134-137 | that text is the indent, the two-space gutter, the name coloured green, then nothing but padding spaces |
| IndexSheet.RenderRow | src/Writer.php:131-148 | a row is printed exactly when its padding count is non-negative; otherwise `str_repeat` throws |
| IndexSheet.RowLayout | src/Writer.php:138-148 | split at its newlines, a row is the prefix with the description's first line, then each further line after exactly as many spaces as the prefix is long |
| IndexSheet.IndexRows | src/Writer.php:122-156 | no items give no rows and complete; a complete listing has at least one row per item |
| IndexSheet.EachRows | src/Writer.php:129-155 | the `foreach` over the items: none give no rows; a complete pass has at least one row per item |
| IndexSheet.ItemRows | src/Writer.php:131-154 | one item: a complete item printed its own row; a leaf prints at most that row, and is complete exactly when it did |
| IndexSheet.IndexRowsPrefix | src/Writer.php:122-156 | for any width, the rows printed are the renderings of a prefix of the pre-order listing at that width (the computed one when 0 is passed), and the listing completes exactly when every entry was printed; otherwise it stopped at the first entry whose padding count is negative, the entry right after the rows printed |
| IndexSheet.IndexPreOrder | src/Writer.php:122-156 | with a sufficient width, `index` completes and prints one row per item in pre-order (each parent, then its children one level deeper), all with the same width |
| IndexSheet.PaddingNeverNegative | src/Writer.php:137 | with the computed width, every padding count at depth `k` is at least `4k + 4`, and every prefix has the same length |
| IndexSheet.NegativePaddingStops | src/Writer.php:137 | a top-level item with a negative padding count makes the listing throw |
| IndexSheet.ExampleNarrowWidth | src/Writer.php:129-150 | with width 1, `ab` is printed, then `toolong` throws |
| IndexSheet.Index | src/Writer.php:122-156 | `index` prints the rows of the listing, each with a newline; it is complete exactly when no row threw |
| IndexSheet.Emit | src/Writer.php:150 | rows printed before a throw remain printed; off the command line nothing changes |
| IndexSheet.ExampleWidth | src/Writer.php:164-186 | `help` and `db` with child `migrate` give width 15 |
| Options.Release | src/CLI.php:82-86 | (corrected) releasing an option removes its entry and unbinds only its own shorthand, keeping the registry consistent |
| Options.Register | src/CLI.php:80-103 | (corrected) on return the entry is stored and its shorthand bound to it; a new name is appended at the end of the option order; it throws exactly when the shorthand is bound to another option; a new name that throws leaves the registry unchanged; consistency is kept on both paths |
| Options.TakenLeavesNoTrace | src/CLI.php:82-92 | when it throws, the old entry of the name and its binding are already gone |
| Options.OwnerIsUnique | src/CLI.php:90-95 | in a consistent registry at most one option owns a shorthand |
| Options.RebindOwnShorthand | src/CLI.php:82-90 | re-registering an option with its own shorthand succeeds |
| Options.ReRegisterFreesShorthand | src/CLI.php:82-90 | re-registering an option with another shorthand frees its old one |
| Options.ReRegisterMovesToEnd | src/CLI.php:85-98 | a re-registered option moves to the end of the listing order |
| Options.ReleaseAsWritten | src/CLI.php:82-86 | (as written) the option's entry is removed and others are kept; of a registered option the key of its shorthand is unbound, "" when it has none, whoever owns it; every other binding is kept |
| Options.RegisterAsWritten | src/CLI.php:80-103 | (as written) it throws exactly when the requested shorthand is bound and is not the key the release unsets; a throw names that shorthand and leaves the name unregistered; on return the entry is stored, a new name at the end of the order, and its shorthand bound; other options unchanged; every other binding is kept except the unset key, so re-registering an option without a shorthand leaves no "" binding |
| Options.AsWrittenAgrees | src/CLI.php:82-86 | the as-written release agrees with the corrected one unless an option without a shorthand is re-registered while "" is bound |
| Options.AsWrittenDropsBinding | src/CLI.php:84 | as written, re-registering an option without a shorthand unsets the "" key and so another option's binding |
| Options.AsWrittenLosesEmptyShorthand | src/CLI.php:82-95 | as written, this breaks consistency and lets a third option take "" as well; the corrected release keeps the binding |
| Options.Collision | src/CLI.php:88-95 | a bound shorthand cannot be taken by another option until its owner is re-registered with another one |
| Options.ExampleCollision | src/CLI.php:88-95 | `compress` cannot take `c` from `color`, and can once `color` moves to `z` |
| Commands.GetDescription | src/Commands/CommandAbstract.php:34-37 | the description if set, else the name followed by " command." |
| Commands.GetChildCommand | src/Commands/CommandAbstract.php:55-58 | the child stored under the key, or none exactly when the key is absent |
| Commands.SetChildCommands | src/Commands/CommandAbstract.php:66-69 | the child map is replaced wholesale; lookups go by its keys; nothing else changes |
| Commands.AddChildCommand | src/Commands/CommandAbstract.php:77-80 | the child is found under its own name; other keys are unchanged; an existing key keeps its place and a new one is appended |
| Commands.LookupIsByKey | src/Commands/CommandAbstract.php:57-68 | a child stored under a key other than its name is found by the key, not by its name |
| Commands.HelpCommand | src/Commands/HelpCommand.php:12-43 | the help command is named `help`, described "Print all available commands.", has no children, and holds the lists it was given |
| Help.ItemNameSegments | src/Commands/HelpCommand.php:84 | an item's name is the bare command name under no or a falsy parent; under a truthy parent it splits at its colons into the parent's segments then the command's |
| Help.BuildCommandItems | src/Commands/HelpCommand.php:79-100 | one item per command in map order, named after its parent item (no prefix for a falsy parent), described by `getDescription()`, with children exactly when the command has some |
| Help.ItemIsBuilt | src/Commands/HelpCommand.php:84-94 | each item is built from its own command, and a node's children are built with the node's name as parent |
| Help.FalsyParentAddsNoPrefix | src/Commands/HelpCommand.php:84 | a parent named "" or "0" adds no prefix |
| Help.BuildOptionItems | src/Commands/HelpCommand.php:108-126 | one leaf per option in order: `--name`, or `-s, --name` with a shorthand, and the description unchanged |
| Help.SharedWidth | src/Commands/HelpCommand.php:58-62 | the shared width is the larger of the two sheets' widths |
| Help.Handle | src/Commands/HelpCommand.php:53-70 | the output is the "Commands:" heading, the command rows, an empty line, the "Options:" heading and the option rows, both sheets at the shared width, and it never throws |
| Help.Sheets | src/Commands/HelpCommand.php:64-69 | when the command sheet completes: the "Commands:" heading, its rows, an empty line, the "Options:" heading and its rows; when it throws, the output ends after the command rows printed so far |
| Help.SheetsShareColumn | src/Commands/HelpCommand.php:58-69 | every row of both sheets renders its item at its depth with the shared width, and all prefixes have one length, so the descriptions line up across both sheets |
| Cli.New | src/CLI.php:36-42 | the bin is the basename of argument 0; the positional arguments followed by the options are the rest of the vector, the options all start with `-` and the last positional argument does not; no commands, and an empty (so consistent) option registry |
| Cli.RegisterCommand | src/CLI.php:63-70 | the command is stored under its name; other commands unchanged; an existing name keeps its place |
| Cli.RegisterOption | src/CLI.php:80-103 | the option registry's contract on the front end, with the release corrected: the entry stored and its shorthand bound, a new name appended at the end of the option order (the order of the help listing), the throw exactly on a shorthand bound to another option, consistency kept; commands and arguments unchanged |
| Cli.RegisterSupportingCommands | src/CLI.php:49-55 | `help` is registered holding the commands and options registered so far, appended at the end of the command order unless a `help` command was already there, which keeps its place; other commands unchanged |
| Cli.HelpSnapshotIsFixed | src/CLI.php:51-54 | commands and options registered after the help command do not reach its lists |
| Cli.HelpDoesNotListItself | src/CLI.php:51-54 | the help command does not list itself |
| Cli.Step | src/CLI.php:119-127 | one lookup: with no command in hand, a top-level command exactly when the segment is a key, and then the one stored under it; else the same among the children of the command in hand |
| Cli.Walk | src/CLI.php:117-128 | an empty action leaves the command in hand; with none in hand, segments that name no top-level command end with no command |
| Cli.WalkSnoc | src/CLI.php:117-128 | the walk's result is its last lookup: among the top-level commands after a miss, else among the children of the command in hand |
| Cli.WalkRestartsAfterMiss | src/CLI.php:121-125 | after a miss the rest of the action is walked as if it were the whole action |
| Cli.WalkFindsPaths | src/CLI.php:117-128 | an action that is a path in the command tree reaches the command at its end |
| Cli.MissFindsTopLevelCommand | src/CLI.php:117-128 | `x:b` with no command `x` runs the top-level command `b` |
| Cli.Handle | src/CLI.php:110-140 | no command runs exactly when there is no action or the walk ends with none; otherwise the command found receives the arguments after the action and all the options |
| Cli.Output | src/CLI.php:131-139 | no command prints `no command`; a found command's output is modelled exactly when it is the help command, opening with the "Commands:" heading on the command line, and empty off it (a case the program never reaches, since the constructor throws there) |
| Cli.HelpRuns | src/CLI.php:110-140 | the action `help` runs the help command with its lists, printing exactly the help output |
| Cli.TopItemDispatches | src/Commands/HelpCommand.php:84 | a top-level command is listed under its name, and that name as the action finds it |
| Cli.ChildItemDispatches | src/Commands/HelpCommand.php:84-94 | when the top-level name of the path is truthy (not "" or "0"), a child is listed under its colon-joined path, and that listed name as the action finds it |
| Cli.SplitDbMigrate | src/CLI.php:117 | `db:migrate` splits into `db` and `migrate` |
| Cli.ExampleDispatch | src/CLI.php:117-128 | `db`, `migrate` finds the child `migrate` of `db` |
| Cli.ExampleMisses | src/CLI.php:117-128 | `db`, `seed` and `migrate` alone end with no command |

## Left out

- `getPhpArguments` (`src/CLI.php:147-171`) reads global state, so the argument vector is a parameter of `Cli.New`.
- `basename`, a platform path routine, is a function parameter.
- `registerCommand` with a class name (`src/CLI.php:65-68`) instantiates a class by reflection, so only the instance form is modelled.
- `echo` is modelled as appending to `output`.
- `register_shutdown_function` is modelled by the explicit step `Writer.Shutdown`, taken when the script ends.
- `php_sapi_name()` is the `isCli` parameter of `Writer.New`.
- Writer.Filled: the count is computed exactly over the rationals. PHP computes `60 / max * current` in floating point, where rounding may differ.
- Writer.Percent: computed exactly, like `Writer.Filled`. PHP computes `current / max * 100` in floating point, where rounding may differ (`29/100` shows 28%).
- Object identity is not modelled. The help command's lists are value copies, which matches PHP's copy-on-assign arrays. The command objects inside them are shared in PHP, so a command changed after registration would show the change in the listing; here it does not. The same sharing reaches dispatch: a child added to a command after `registerCommand` (`addChildCommand`, `src/Commands/CommandAbstract.php:77-80`, on the registered object) is found by the PHP walk, but `Cli.Walk` walks the value stored at registration and does not find it.
- Cli.Output: a top-level lookup of a missing key (`$this->commands[$segment]`, `src/CLI.php:123`) raises PHP 8's "Undefined array key" warning, which is printed before `no command` (or before the command found later, as for `x:b`). The warning is not modelled: `Cli.Output` gives only the `no command` line.
- `BlankCommand` and the `handle` bodies of user commands are outside the core. `Cli.Output` is `None` for them.
- PHP turns integer-like string keys (`"12"`) into integers. Lookups give the same results, so the coercion is left out.
- A negative `indent` cannot be passed to `index` here (`nat`). `HelpCommand` passes 0.
- The text of the thrown exception's message is left out. `Threw` carries the offending shorthand.
- IndexSheet.RowLayout: requires a name without a newline. With one, the row would have more lines than the description.
- A command whose name property is uninitialised (an `Error` in PHP) is not modelled; every command has a name.

## Findings

| source | as written | input that shows it | evidently intended | confidence | as-written member | corrected member |
|---|---|---|---|---|---|---|
| src/CLI.php:84 | re-registering an option unsets `optionShorthands[$old['shorthand']]`; for an option without a shorthand the key is null, which PHP reads as "" | `alpha` registered with shorthand "", `beta` without one; re-register `beta` | unbind only a shorthand the option actually has | high (not executed) | Options.AsWrittenLosesEmptyShorthand | Options.Register |

=== FILE: args.dfy ===
/** The split of the raw argument vector performed by the `CLI` constructor:
    argument 0 becomes the executable name, the maximal trailing run of
    tokens that start with `-` becomes the options, and everything between
    is positional. */
module Args {

  const Marker: char := '-'

  /** `str_starts_with($argument, '-')`; the empty token does not start with it. */
  predicate IsOptionToken(t: string) {
    |t| > 0 && t[0] == Marker
  }

  function Reverse<T>(s: seq<T>): (r: seq<T>)
    ensures |r| == |s|
    ensures forall i :: 0 <= i < |s| ==> r[i] == s[|s| - 1 - i]
  {
    if s == [] then [] else Reverse(s[1..]) + [s[0]]
  }

  /** The `foreach ... break` loop: the option tokens at the front of `s`,
      up to the first token that is not one. */
  function TakeOptions(s: seq<string>): (r: seq<string>)
    ensures |r| <= |s| && r == s[..|r|]
    ensures forall i :: 0 <= i < |r| ==> IsOptionToken(r[i])
    ensures |r| == |s| || !IsOptionToken(s[|r|])
  {
    if s == [] || !IsOptionToken(s[0]) then []
    else [s[0]] + TakeOptions(s[1..])
  }

  /** `getPhpOptions`: reverse, take the leading options, reverse back. The
      result is the longest suffix of `args` made only of option tokens. */
  function GetPhpOptions(args: seq<string>): (opts: seq<string>)
    ensures |opts| <= |args| && opts == args[|args| - |opts|..]
    ensures forall i :: 0 <= i < |opts| ==> IsOptionToken(opts[i])
    ensures |opts| == |args| || !IsOptionToken(args[|args| - |opts| - 1])
  {
    var rev := Reverse(args);
    var taken := TakeOptions(rev);
    var opts := Reverse(taken);
    assert forall i :: 0 <= i < |opts| ==> opts[i] == args[|args| - |opts| + i];
    assert |taken| < |rev| ==> rev[|taken|] == args[|args| - |opts| - 1];
    opts
  }

  /** The parsed view of one invocation. */
  datatype Invocation = Invocation(bin: string, arguments: seq<string>, options: seq<string>)

  /** The constructor: `array_shift` takes argument 0 (null for an empty
      vector, which `basename` turns into ""), the options are split off the
      rest, and `array_slice` keeps what precedes them. `basename` is a
      platform path routine and is a parameter here. */
  function Parse(argv: seq<string>, basename: string -> string): (inv: Invocation)
    ensures inv.bin == basename(if argv == [] then "" else argv[0])
    ensures inv.arguments + inv.options == (if argv == [] then [] else argv[1..])
    ensures forall i :: 0 <= i < |inv.options| ==> IsOptionToken(inv.options[i])
    ensures inv.arguments == [] || !IsOptionToken(inv.arguments[|inv.arguments| - 1])
  {
    var rest := if argv == [] then [] else argv[1..];
    var opts := GetPhpOptions(rest);
    var positional := rest[..|rest| - |opts|];
    assert positional + opts == rest;
    Invocation(basename(if argv == [] then "" else argv[0]), positional, opts)
  }

  /** The split is the only one with its three properties: any division of
      `args` into a prefix and a suffix of option tokens whose prefix does
      not end in an option token is the one `GetPhpOptions` finds. */
  lemma {:induction false} SplitIsUnique(args: seq<string>, positional: seq<string>, opts: seq<string>)
    requires positional + opts == args
    requires forall i :: 0 <= i < |opts| ==> IsOptionToken(opts[i])
    requires positional == [] || !IsOptionToken(positional[|positional| - 1])
    ensures opts == GetPhpOptions(args)
    ensures positional == args[..|args| - |GetPhpOptions(args)|]
  {
    var found := GetPhpOptions(args);
    assert found == args[|positional|..];
    assert opts == args[|positional|..];
  }

  /** Worked example: `run build --verbose -x`. */
  lemma ExampleSplit(basename: string -> string)
    ensures Parse(["bin/app", "run", "build", "--verbose", "-x"], basename).arguments == ["run", "build"]
    ensures Parse(["bin/app", "run", "build", "--verbose", "-x"], basename).options == ["--verbose", "-x"]
  {
    var argv := ["bin/app", "run", "build", "--verbose", "-x"];
    var rest := ["run", "build", "--verbose", "-x"];
    assert argv[1..] == rest;
    assert IsOptionToken("-x") && IsOptionToken("--verbose") && !IsOptionToken("build");
    SplitIsUnique(rest, ["run", "build"], ["--verbose", "-x"]);
  }
}

=== FILE: assoc.dfy ===
/** PHP arrays with string keys, as the library uses them for its registries:
    an ordered list of entries in which every key occurs at most once.
    `$a[$k] = $v` overwrites an existing key in place and appends a new one;
    `unset($a[$k])` removes the entry and keeps the order of the others, so an
    unset followed by a re-insert moves the key to the end. */
module Assoc {
  import opened Wrappers

  predicate UniqueKeys<K(==), V>(a: seq<(K, V)>) {
    forall i, j :: 0 <= i < j < |a| ==> a[i].0 != a[j].0
  }

  type Arr<K(==), V> = a: seq<(K, V)> | UniqueKeys(a) witness []

  /** The keys in iteration order (`array_keys`). */
  function Keys<K, V>(a: seq<(K, V)>): (ks: seq<K>)
    ensures |ks| == |a|
    ensures forall i :: 0 <= i < |a| ==> ks[i] == a[i].0
  {
    seq(|a|, i requires 0 <= i < |a| => a[i].0)
  }

  /** The values in iteration order (what `foreach ($a as $v)` visits). */
  function Values<K, V>(a: seq<(K, V)>): (vs: seq<V>)
    ensures |vs| == |a|
    ensures forall i :: 0 <= i < |a| ==> vs[i] == a[i].1
  {
    seq(|a|, i requires 0 <= i < |a| => a[i].1)
  }

  /** Position of the first entry with key `k`, or `|a|` when there is none. */
  function Find<K(==), V>(a: seq<(K, V)>, k: K): (i: nat)
    ensures i <= |a|
    ensures i < |a| ==> a[i].0 == k
    ensures forall j :: 0 <= j < i ==> a[j].0 != k
  {
    if a == [] then 0
    else if a[0].0 == k then 0
    else 1 + Find(a[1..], k)
  }

  lemma FindIsPosition<K, V>(a: Arr<K, V>, k: K, i: nat)
    requires i < |a| && a[i].0 == k
    ensures Find(a, k) == i
  {
  }

  /** `$a[$k] ?? null`: the value stored under `k`, if any. */
  function Get<K(==), V>(a: Arr<K, V>, k: K): (r: Option<V>)
    ensures r.Some? <==> k in Keys(a)
    ensures forall i :: 0 <= i < |a| && a[i].0 == k ==> r == Some(a[i].1)
  {
    var i := Find(a, k);
    if i < |a| then Some(a[i].1) else None
  }

  /** `$a[$k] = $v`. */
  function Put<K(==, !new), V>(a: Arr<K, V>, k: K, v: V): (r: Arr<K, V>)
    ensures Get(r, k) == Some(v)
    ensures forall k' :: k' != k ==> Get(r, k') == Get(a, k')
    ensures k in Keys(a) ==> Keys(r) == Keys(a)
    ensures k in Keys(a) ==> forall i :: 0 <= i < |a| && a[i].0 != k ==> r[i] == a[i]
    ensures k !in Keys(a) ==> r == a + [(k, v)]
  {
    var i := Find(a, k);
    if i < |a| then
      var r := a[i := (k, v)];
      assert Keys(r) == Keys(a);
      r
    else
      AppendKeepsOthers(a, k, v);
      a + [(k, v)]
  }

  lemma {:induction false} AppendKeepsOthers<K(!new), V>(a: Arr<K, V>, k: K, v: V)
    requires k !in Keys(a)
    ensures UniqueKeys(a + [(k, v)])
    ensures Get(a + [(k, v)], k) == Some(v)
    ensures forall k' :: k' != k ==> Get(a + [(k, v)], k') == Get(a, k')
  {
    var r: Arr<K, V> := a + [(k, v)];
    assert r[|a|].0 == k;
    forall k' | k' != k
      ensures Get(r, k') == Get(a, k')
    {
      if k' in Keys(a) {
        var i :| 0 <= i < |a| && Keys(a)[i] == k';
        assert r[i] == a[i];
      }
    }
  }

  /** `unset($a[$k])`. */
  function Remove<K(==, !new), V>(a: Arr<K, V>, k: K): (r: Arr<K, V>)
    ensures Get(r, k) == None
    ensures forall k' :: k' != k ==> Get(r, k') == Get(a, k')
    ensures k !in Keys(a) ==> r == a
    ensures k in Keys(a) ==> |r| == |a| - 1
    ensures k in Keys(a) ==> forall j :: 0 <= j < |r| ==>
              r[j] == if j < Find(a, k) then a[j] else a[j + 1]
  {
    var i := Find(a, k);
    if i < |a| then
      DropKeepsOthers(a, k, i);
      a[..i] + a[i + 1..]
    else a
  }

  lemma {:induction false} DropKeepsOthers<K(!new), V>(a: Arr<K, V>, k: K, i: nat)
    requires i < |a| && a[i].0 == k
    ensures UniqueKeys(a[..i] + a[i + 1..])
    ensures Get(a[..i] + a[i + 1..], k) == None
    ensures forall k' :: k' != k ==> Get(a[..i] + a[i + 1..], k') == Get(a, k')
  {
    DropUnique(a, k, i);
    var r: Arr<K, V> := a[..i] + a[i + 1..];
    forall k' | k' != k
      ensures Get(r, k') == Get(a, k')
    {
      if k' in Keys(a) {
        var j :| 0 <= j < |a| && Keys(a)[j] == k';
        if j < i { assert r[j] == a[j]; } else { assert r[j - 1] == a[j]; }
      }
    }
  }

  lemma {:induction false} DropUnique<K, V>(a: Arr<K, V>, k: K, i: nat)
    requires i < |a| && a[i].0 == k
    ensures forall j :: 0 <= j < |a| - 1 ==> (a[..i] + a[i + 1..])[j] == if j < i then a[j] else a[j + 1]
    ensures UniqueKeys(a[..i] + a[i + 1..])
    ensures k !in Keys(a[..i] + a[i + 1..])
  {
    var r := a[..i] + a[i + 1..];
    assert forall j :: 0 <= j < |r| ==> r[j] == if j < i then a[j] else a[j + 1];
  }

  /** Unsetting a present key and storing it again moves it to the end; the
      other keys keep their relative order. */
  lemma {:induction false} RemovePutMovesToEnd<K(!new), V>(a: Arr<K, V>, k: K, v: V)
    requires k in Keys(a)
    ensures Keys(Put(Remove(a, k), k, v)) == Keys(a)[..Find(a, k)] + Keys(a)[Find(a, k) + 1..] + [k]
  {
    var r := Remove(a, k);
    var i := Find(a, k);
    assert Keys(r) == Keys(a)[..i] + Keys(a)[i + 1..];
  }
}

=== FILE: cli.dfy ===
/** The `CLI` front end: the invocation split at construction, the command
    and option registries, the built-in help command, and the dispatch of
    the first positional argument (the action) to a command. */
module Cli {
  import opened Wrappers
  import opened Assoc
  import opened Strings
  import opened Args
  import opened Colors
  import opened Writer
  import opened Options
  import opened Commands
  import Help

  /** Separator of the segments of an action such as `db:migrate`. */
  const Colon: char := ':'

  /** What `handle` echoes when no command is found. */
  const NoCommandMessage: string := "no command\n"

  datatype Cli = Cli(
    bin: string,
    arguments: seq<string>,
    options: seq<string>,
    commands: Arr<string, Command>,
    registry: Registry)

  /** Every command is stored under its own name, as `registerCommand` and
      `addChildCommand` do. */
  predicate KeyedByName(commands: Arr<string, Command>) {
    forall i :: 0 <= i < |commands| ==> commands[i].0 == commands[i].1.name
  }

  /** The constructor, given the raw argument vector. */
  function New(argv: seq<string>, basename: string -> string): (r: Cli)
    ensures r.bin == basename(if argv == [] then "" else argv[0])
    ensures r.arguments + r.options == (if argv == [] then [] else argv[1..])
    ensures forall i :: 0 <= i < |r.options| ==> IsOptionToken(r.options[i])
    ensures r.arguments == [] || !IsOptionToken(r.arguments[|r.arguments| - 1])
    ensures r.commands == [] && r.registry == Empty && Consistent(r.registry)
  {
    var inv := Parse(argv, basename);
    EmptyConsistent();
    Cli(inv.bin, inv.arguments, inv.options, [], Empty)
  }

  /** `registerCommand($command)`: stored under its name, replacing an
      earlier command of that name in place. */
  function RegisterCommand(cli: Cli, c: Command): (r: Cli)
    ensures Get(r.commands, c.name) == Some(c)
    ensures forall key :: key != c.name ==> Get(r.commands, key) == Get(cli.commands, key)
    ensures c.name in Keys(cli.commands) ==> Keys(r.commands) == Keys(cli.commands)
    ensures c.name !in Keys(cli.commands) ==> Keys(r.commands) == Keys(cli.commands) + [c.name]
    ensures KeyedByName(cli.commands) ==> KeyedByName(r.commands)
    ensures r.bin == cli.bin && r.arguments == cli.arguments && r.options == cli.options && r.registry == cli.registry
  {
    var commands := Put(cli.commands, c.name, c);
    assert KeyedByName(cli.commands) ==> KeyedByName(commands) by {
      if KeyedByName(cli.commands) {
        forall i | 0 <= i < |commands|
          ensures commands[i].0 == commands[i].1.name
        {
          if commands[i].0 != c.name {
            assert Get(commands, commands[i].0) == Some(commands[i].1);
          }
        }
      }
    }
    cli.(commands := commands)
  }

  /** The outcome of `registerOption`: a normal return, or the resolution
      error for a shorthand already bound to another option. */
  datatype OptionOutcome =
    | Returned(cli: Cli)
    | Threw(cli: Cli, shorthand: string)

  /** `registerOption($name, $description, $shorthand)`, with the shorthand
      release corrected as described under Findings. */
  function RegisterOption(cli: Cli, name: string, description: string, shorthand: Option<string>): (r: OptionOutcome)
    ensures r.Returned? ==> Get(r.cli.registry.options, name) == Some(OptionEntry(name, description, shorthand))
    ensures r.Returned? && shorthand.Some? ==> Get(r.cli.registry.shorthands, shorthand.value) == Some(name)
    ensures r.Threw? ==> shorthand == Some(r.shorthand) && Get(r.cli.registry.options, name) == None
    ensures forall n :: n != name ==> Get(r.cli.registry.options, n) == Get(cli.registry.options, n)
    ensures r.Returned? && name !in Keys(cli.registry.options) ==>
              Keys(r.cli.registry.options) == Keys(cli.registry.options) + [name]
    ensures Consistent(cli.registry) ==> Consistent(r.cli.registry)
    ensures Consistent(cli.registry) ==>
      (r.Threw? <==> shorthand.Some? && Get(cli.registry.shorthands, shorthand.value).Some?
                     && Get(cli.registry.shorthands, shorthand.value) != Some(name))
    ensures r.cli.commands == cli.commands && r.cli.arguments == cli.arguments && r.cli.options == cli.options
  {
    match Register(cli.registry, name, description, shorthand)
    case Registered(reg) => Returned(cli.(registry := reg))
    case ShorthandTaken(reg, s) => Threw(cli.(registry := reg), s)
  }

  /** `registerSupportingCommands`: a help command holding copies of the
      commands and options registered so far, itself registered as `help`. */
  function RegisterSupportingCommands(cli: Cli): (r: Cli)
    ensures Get(r.commands, Commands.HelpName) == Some(HelpCommand(cli.commands, cli.registry.options))
    ensures forall key :: key != Commands.HelpName ==> Get(r.commands, key) == Get(cli.commands, key)
    ensures Commands.HelpName in Keys(cli.commands) ==> Keys(r.commands) == Keys(cli.commands)
    ensures Commands.HelpName !in Keys(cli.commands) ==> Keys(r.commands) == Keys(cli.commands) + [Commands.HelpName]
    ensures KeyedByName(cli.commands) ==> KeyedByName(r.commands)
    ensures r.registry == cli.registry && r.arguments == cli.arguments && r.options == cli.options
  {
    RegisterCommand(cli, HelpCommand(cli.commands, cli.registry.options))
  }

  /** The help command lists only what was registered before it: commands
      and options registered later do not reach its copies. */
  lemma {:induction false} HelpSnapshotIsFixed(cli: Cli, c: Command, name: string, description: string, shorthand: Option<string>)
    requires c.name != Commands.HelpName
    ensures var helped := RegisterSupportingCommands(cli);
            var later := RegisterOption(RegisterCommand(helped, c), name, description, shorthand).cli;
            Get(later.commands, Commands.HelpName) == Some(HelpCommand(cli.commands, cli.registry.options))
  {
    var helped := RegisterSupportingCommands(cli);
    var added := RegisterCommand(helped, c);
    assert Get(added.commands, Commands.HelpName) == Get(helped.commands, Commands.HelpName);
  }

  /** A help command registered on a fresh front end does not list itself. */
  lemma HelpDoesNotListItself(cli: Cli)
    requires Commands.HelpName !in Keys(cli.commands)
    ensures var h := Get(RegisterSupportingCommands(cli).commands, Commands.HelpName).value.handler;
            h.Help? && Commands.HelpName !in Keys(h.commands)
  {
  }

  /** One step of the walk in `handle`: with no command in hand the segment
      is looked up among the top-level commands (a missing key reads as
      null), otherwise among the children of the command in hand. */
  function Step(commands: Arr<string, Command>, current: Option<Command>, segment: string): (r: Option<Command>)
    ensures current.None? ==> (r.Some? <==> segment in Keys(commands))
    ensures current.None? ==> forall i :: 0 <= i < |commands| && commands[i].0 == segment ==> r == Some(commands[i].1)
    ensures current.Some? ==> (r.Some? <==> segment in Keys(current.value.children))
    ensures current.Some? ==> forall i :: 0 <= i < |current.value.children| && current.value.children[i].0 == segment ==>
              r == Some(current.value.children[i].1)
  {
    match current
    case None => Get(commands, segment)
    case Some(c) => GetChildCommand(c, segment)
  }

  /** The action walk of `handle`, segment by segment from the front. A
      miss leaves no command in hand, so the next segment is looked up
      among the top-level commands again. */
  function Walk(commands: Arr<string, Command>, segments: seq<string>, current: Option<Command>): (r: Option<Command>)
    ensures segments == [] ==> r == current
    ensures current.None? && (forall j :: 0 <= j < |segments| ==> segments[j] !in Keys(commands)) ==> r.None?
    decreases |segments|
  {
    if segments == [] then current
    else
      assert forall j :: 0 <= j < |segments| - 1 ==> segments[1..][j] == segments[j + 1];
      Walk(commands, segments[1..], Step(commands, current, segments[0]))
  }

  /** A one-segment walk is one lookup. */
  lemma WalkOne(commands: Arr<string, Command>, s: string, current: Option<Command>)
    ensures Walk(commands, [s], current) == Step(commands, current, s)
  {
    assert [s][1..] == [];
  }

  /** The walk ends with its last lookup: the last segment looked up among
      the top-level commands if the walk up to it ended with no command,
      else among the children of the command it ended with. */
  lemma {:induction false} WalkSnoc(commands: Arr<string, Command>, segments: seq<string>, s: string, current: Option<Command>)
    ensures Walk(commands, segments + [s], current) == Step(commands, Walk(commands, segments, current), s)
    decreases |segments|
  {
    if segments == [] {
      assert (segments + [s])[1..] == [];
    } else {
      assert (segments + [s])[1..] == segments[1..] + [s];
      WalkSnoc(commands, segments[1..], s, Step(commands, current, segments[0]));
    }
  }

  /** A walk over `a + b` is the walk over `b` from where the walk over `a`
      ended. */
  lemma {:induction false} WalkConcat(commands: Arr<string, Command>, a: seq<string>, b: seq<string>, current: Option<Command>)
    ensures Walk(commands, a + b, current) == Walk(commands, b, Walk(commands, a, current))
    decreases |a|
  {
    if a == [] {
      assert a + b == b;
    } else {
      assert (a + b)[1..] == a[1..] + b;
      WalkConcat(commands, a[1..], b, Step(commands, current, a[0]));
    }
  }

  /** Once the walk over a prefix has missed, what follows is walked as if
      it were the whole action. */
  lemma {:induction false} WalkRestartsAfterMiss(commands: Arr<string, Command>, a: seq<string>, b: seq<string>)
    requires Walk(commands, a, None) == None
    ensures Walk(commands, a + b, None) == Walk(commands, b, None)
  {
    WalkConcat(commands, a, b, None);
  }

  /** Descending from `c` through the children named by `segments`; a
      missing child ends the descent with no command. */
  function Follow(c: Command, segments: seq<string>): (r: Option<Command>)
    ensures segments == [] ==> r == Some(c)
    decreases |segments|
  {
    if segments == [] then Some(c)
    else
      match GetChildCommand(c, segments[0])
      case None => None
      case Some(child) => Follow(child, segments[1..])
  }

  /** The strict reading of an action as a path in the command tree: the
      first segment names a top-level command, each further one a child of
      the previous, and any miss means no command. */
  function Resolve(commands: Arr<string, Command>, segments: seq<string>): (r: Option<Command>)
    ensures segments == [] ==> r == None
    ensures |segments| == 1 ==> r == Get(commands, segments[0])
  {
    if segments == [] then None
    else
      match Get(commands, segments[0])
      case None => None
      case Some(c) => Follow(c, segments[1..])
  }

  /** One more segment is one more child lookup. */
  lemma {:induction false} FollowSnoc(c: Command, segments: seq<string>, s: string)
    ensures Follow(c, segments + [s]) == match Follow(c, segments) case None => None case Some(d) => GetChildCommand(d, s)
    decreases |segments|
  {
    if segments != [] {
      assert (segments + [s])[1..] == segments[1..] + [s];
      match GetChildCommand(c, segments[0])
      case None =>
      case Some(child) => FollowSnoc(child, segments[1..], s);
    } else {
      assert (segments + [s])[1..] == [];
    }
  }

  lemma {:induction false} ResolveSnoc(commands: Arr<string, Command>, segments: seq<string>, s: string)
    requires segments != []
    ensures Resolve(commands, segments + [s]) == match Resolve(commands, segments) case None => None case Some(d) => GetChildCommand(d, s)
  {
    assert (segments + [s])[0] == segments[0];
    assert (segments + [s])[1..] == segments[1..] + [s];
    match Get(commands, segments[0])
    case None =>
    case Some(c) => FollowSnoc(c, segments[1..], s);
  }

  /** Along a path of children that exists, the walk visits the path. */
  lemma {:induction false} WalkFollows(commands: Arr<string, Command>, c: Command, segments: seq<string>)
    requires Follow(c, segments).Some?
    ensures Walk(commands, segments, Some(c)) == Follow(c, segments)
    decreases |segments|
  {
    if segments != [] {
      WalkFollows(commands, GetChildCommand(c, segments[0]).value, segments[1..]);
    }
  }

  /** An action that is a path in the command tree reaches the command at
      its end. */
  lemma {:induction false} WalkFindsPaths(commands: Arr<string, Command>, segments: seq<string>)
    requires Resolve(commands, segments).Some?
    ensures Walk(commands, segments, None) == Resolve(commands, segments)
  {
    WalkFollows(commands, Get(commands, segments[0]).value, segments[1..]);
  }

  /** Worked example of the restart: with the top-level command `b`, the
      action `x:b`, where `x` is no command, reaches `b` although it is no
      path in the tree. */
  lemma MissFindsTopLevelCommand(b: Command)
    requires b.name == "b"
    ensures Walk([("b", b)], Split("x:b", Colon), None) == Some(b)
    ensures Resolve([("b", b)], Split("x:b", Colon)) == None
  {
    var commands: Arr<string, Command> := [("b", b)];
    SplitPair("x", "b");
    assert "x" + [Colon] + "b" == "x:b";
    assert Get(commands, "x") == None;
    WalkRestartsAfterMiss(commands, ["x"], ["b"]);
    assert ["x"] + ["b"] == ["x", "b"];
    assert Walk(commands, ["b"], None) == Walk(commands, [], Get(commands, "b"));
  }

  /** The outcome of `handle`: the "no command" message, or the command
      found with the remaining positional arguments and the options. */
  datatype Dispatch =
    | NoCommand
    | Invoke(command: Command, arguments: seq<string>, options: seq<string>)

  /** The action split at colons and walked. */
  function Lookup(commands: Arr<string, Command>, action: string): Option<Command> {
    Walk(commands, Split(action, Colon), None)
  }

  /** `handle`: the first positional argument is the action; without one,
      or when the walk ends with no command, "no command" is echoed and no
      command runs. */
  function Handle(cli: Cli): (r: Dispatch)
    ensures r.NoCommand? <==> cli.arguments == [] || Lookup(cli.commands, cli.arguments[0]).None?
    ensures r.Invoke? ==> Some(r.command) == Lookup(cli.commands, cli.arguments[0])
    ensures r.Invoke? ==> r.arguments == cli.arguments[1..] && r.options == cli.options
  {
    if cli.arguments == [] then NoCommand
    else
      match Lookup(cli.commands, cli.arguments[0])
      case None => NoCommand
      case Some(c) => Invoke(c, cli.arguments[1..], cli.options)
  }

  /** The dispatch `handle` makes on the command line: the "no command"
      message, or the output of the help command. What any other command
      prints is outside the model. In the program `isCli` always holds,
      since the constructor throws off the command line
      (`getPhpArguments`); the parameter keeps the writer's two modes
      visible. */
  function Output(d: Dispatch, isCli: bool): (r: Option<seq<string>>)
    ensures d.NoCommand? ==> r == Some([NoCommandMessage])
    ensures d.Invoke? ==> (r.Some? <==> d.command.handler.Help?)
    ensures d.Invoke? && d.command.handler.Help? && !isCli ==> r == Some([])
    ensures d.Invoke? && d.command.handler.Help? && isCli ==>
              |r.value| >= 1 && r.value[0] == Colorize(LightBrown, "Commands:") + "\n"
  {
    match d
    case NoCommand => Some([NoCommandMessage])
    case Invoke(c, _, _) =>
      match c.handler
      case Help(commands, options) => Some(Help.Handle(Writer.New(isCli), commands, options).writer.output)
      case Opaque(_) => None
  }

  /** `help` as the action runs the help command with the copies taken when
      it was registered. */
  lemma HelpRuns(cli: Cli, isCli: bool)
    requires cli.arguments != [] && cli.arguments[0] == Commands.HelpName
    ensures var helped := RegisterSupportingCommands(cli);
            Handle(helped) == Invoke(HelpCommand(cli.commands, cli.registry.options), cli.arguments[1..], cli.options)
    ensures var helped := RegisterSupportingCommands(cli);
            Output(Handle(helped), isCli) == Some(Help.Handle(Writer.New(isCli), cli.commands, cli.registry.options).writer.output)
  {
    SplitNoSep(Commands.HelpName, Colon);
    WalkOne(RegisterSupportingCommands(cli).commands, Commands.HelpName, None);
  }

  /** Each level of the command tree is stored by name, with names that
      contain no colon. */
  predicate Listable(commands: Arr<string, Command>) {
    forall i :: 0 <= i < |commands| ==> commands[i].0 == commands[i].1.name && Colon !in commands[i].0
  }

  /** A top-level command is listed under its name (its item is the `i`-th
      of the sheet by `Help.ItemIsBuilt`), and that name, given as the
      action, finds it. */
  lemma TopItemDispatches(commands: Arr<string, Command>, i: nat)
    requires Listable(commands) && i < |commands|
    ensures var item := Help.BuildItem(commands[i].1, None);
            item.name == commands[i].0 && Lookup(commands, item.name) == Some(commands[i].1)
  {
    SplitNoSep(commands[i].0, Colon);
    WalkOne(commands, commands[i].0, None);
  }

  /** A child of the command at `path` is listed under the path and its own
      name joined by colons, and that listed name, given as the action,
      finds the child. With `TopItemDispatches` and `Help.ItemIsBuilt`, which
      builds a node's children with the node's name as parent, this covers
      every row of the "Commands:" sheet. */
  lemma {:induction false} ChildItemDispatches(commands: Arr<string, Command>, path: seq<string>, x: Command, i: nat)
    requires path != [] && Resolve(commands, path) == Some(x)
    requires forall j :: 0 <= j < |path| ==> Colon !in path[j]
    requires Help.Truthy(path[0])
    requires Listable(x.children) && i < |x.children|
    ensures var item := Help.BuildItem(x.children[i].1, Some(Join(path, Colon)));
            item.name == Join(path + [x.children[i].0], Colon)
            && Lookup(commands, item.name) == Some(x.children[i].1)
  {
    var key := x.children[i].0;
    JoinSnoc(path, key, Colon);
    assert Help.Truthy(Join(path, Colon)) by {
      if |path| > 1 {
        assert Join(path, Colon) == path[0] + [Colon] + Join(path[1..], Colon);
        assert |Join(path, Colon)| > 1;
      }
    }
    var full := path + [key];
    assert forall j :: 0 <= j < |full| ==> Colon !in full[j];
    SplitJoin(full, Colon);
    ResolveSnoc(commands, path, key);
    WalkFindsPaths(commands, full);
  }

  /** An action of two colon-free segments splits into those segments. */
  lemma SplitPair(a: string, b: string)
    requires Colon !in a && Colon !in b
    ensures Split(a + [Colon] + b, Colon) == [a, b]
  {
    SplitConcat(a, b, Colon);
    SplitNoSep(a, Colon);
    SplitNoSep(b, Colon);
  }

  /** The action `db:migrate` is the segments `db` and `migrate`. */
  lemma SplitDbMigrate()
    ensures Split("db:migrate", Colon) == ["db", "migrate"]
  {
    SplitPair("db", "migrate");
    assert "db" + [Colon] + "migrate" == "db:migrate";
  }

  /** Worked example: `db` with the child `migrate`; `db:migrate` finds
      the child. */
  lemma ExampleDispatch(migrate: Command, db: Command)
    requires migrate.name == "migrate" && db.name == "db" && db.children == [("migrate", migrate)]
    ensures Walk([("db", db)], ["db", "migrate"], None) == Some(migrate)
  {
    var commands: Arr<string, Command> := [("db", db)];
    assert Get(commands, "db") == Some(db);
    assert GetChildCommand(db, "migrate") == Some(migrate);
    assert ["db", "migrate"][1..] == ["migrate"];
    assert ["migrate"][1..] == [];
  }

  /** `db:seed` names no child of `db`, and `migrate` is no top-level
      command: both walks end with no command. */
  lemma ExampleMisses(migrate: Command, db: Command)
    requires migrate.name == "migrate" && db.name == "db" && db.children == [("migrate", migrate)]
    ensures Walk([("db", db)], ["db", "seed"], None) == None
    ensures Walk([("db", db)], ["migrate"], None) == None
  {
    var commands: Arr<string, Command> := [("db", db)];
    assert Get(commands, "db") == Some(db);
    assert Get(commands, "migrate") == None;
    assert GetChildCommand(db, "seed") == None;
    WalkSnoc(commands, ["db"], "seed", None);
    assert ["db"] + ["seed"] == ["db", "seed"];
    WalkOne(commands, "db", None);
    WalkOne(commands, "migrate", None);
  }
}

=== FILE: colors.dfy ===
/** The `Colors` enumeration: each colour is backed by an ANSI SGR escape
    sequence, and `Reset` ends a coloured span. */
module Colors {

  const Esc: char := '\U{1B}'

  datatype Color =
    | Reset
    | Black | DarkGray
    | Red | LightRed
    | Green | LightGreen
    | Brown | LightBrown
    | Blue | LightBlue
    | Purple | LightPurple
    | Cyan | LightCyan
    | LightGray | White

  /** The characters that follow ESC in a code. */
  predicate CodeChar(ch: char) {
    ch == '[' || ch == ';' || ch == 'm' || '0' <= ch <= '9'
  }

  /** The enumeration's backing value: ESC, `[`, the SGR parameters, `m`. */
  function Code(c: Color): (r: string)
    ensures |r| >= 4 && r[0] == Esc && r[1] == '[' && r[|r| - 1] == 'm'
    ensures forall i :: 1 <= i < |r| ==> CodeChar(r[i])
    ensures c == Reset <==> |r| == 4
  {
    [Esc] + match c
      case Reset => "[0m"
      case Black => "[0;30m"
      case DarkGray => "[1;30m"
      case Red => "[0;31m"
      case LightRed => "[1;31m"
      case Green => "[0;32m"
      case LightGreen => "[1;32m"
      case Brown => "[0;33m"
      case LightBrown => "[1;33m"
      case Blue => "[0;34m"
      case LightBlue => "[1;34m"
      case Purple => "[0;35m"
      case LightPurple => "[1;35m"
      case Cyan => "[0;36m"
      case LightCyan => "[1;36m"
      case LightGray => "[0;37m"
      case White => "[1;37m"
  }
}

=== FILE: commands.dfy ===
/** Commands (`CommandAbstract` and the `CommandInterface` it implements):
    a name, an optional description and an ordered child map keyed by name,
    forming the sub-command tree. What a command does when handled is
    opaque, except for the built-in help command, which carries the snapshot
    of commands and options it lists. */
module Commands {
  import opened Wrappers
  import opened Assoc
  import opened Options

  datatype Handler =
    | Opaque(id: nat)
    | Help(commands: Arr<string, Command>, options: Arr<string, OptionEntry>)

  /** `name` is `getName()` and `children` is `getChildCommands()`. A
      description of `None` is the typed property left uninitialised. */
  datatype Command = Command(name: string, description: Option<string>, children: Arr<string, Command>, handler: Handler)

  /** `getDescription()`: the description if set, else "<name> command.". */
  function GetDescription(c: Command): (r: string)
    ensures c.description.Some? ==> r == c.description.value
    ensures c.description.None? ==> |r| == |c.name| + 9 && r[..|c.name|] == c.name && r[|c.name|..] == " command."
  {
    OrElse(c.description, c.name + " command.")
  }

  /** `getChildCommand($name)`: the child stored under that key, or null. */
  function GetChildCommand(c: Command, key: string): (r: Option<Command>)
    ensures r.Some? <==> key in Keys(c.children)
    ensures forall i :: 0 <= i < |c.children| && c.children[i].0 == key ==> r == Some(c.children[i].1)
  {
    Get(c.children, key)
  }

  /** `setChildCommands($children)`: the map replaces the old one wholesale;
      lookups go by its keys, whatever the children's own names are. */
  function SetChildCommands(c: Command, children: Arr<string, Command>): (r: Command)
    ensures r.children == children
    ensures r.name == c.name && r.description == c.description && r.handler == c.handler
    ensures forall key :: GetChildCommand(r, key) == Get(children, key)
  {
    c.(children := children)
  }

  /** `addChildCommand($child)`: stored under the child's own name; other
      keys and the order are unchanged, and an existing key keeps its
      place. */
  function AddChildCommand(c: Command, child: Command): (r: Command)
    ensures GetChildCommand(r, child.name) == Some(child)
    ensures forall key :: key != child.name ==> GetChildCommand(r, key) == GetChildCommand(c, key)
    ensures child.name in Keys(c.children) ==> Keys(r.children) == Keys(c.children)
    ensures child.name !in Keys(c.children) ==> Keys(r.children) == Keys(c.children) + [child.name]
    ensures r.name == c.name && r.description == c.description && r.handler == c.handler
  {
    c.(children := Put(c.children, child.name, child))
  }

  /** A child whose own name differs from its key is found by the key only. */
  lemma LookupIsByKey(c: Command, key: string, child: Command)
    requires child.name != key
    ensures GetChildCommand(SetChildCommands(c, [(key, child)]), key) == Some(child)
    ensures GetChildCommand(SetChildCommands(c, [(key, child)]), child.name) == None
  {
  }

  const HelpName: string := "help"
  const HelpDescription: string := "Print all available commands."

  /** A `HelpCommand` after `setCommands` and `setOptions`. */
  function HelpCommand(commands: Arr<string, Command>, options: Arr<string, OptionEntry>): (r: Command)
    ensures r.name == HelpName && GetDescription(r) == HelpDescription
    ensures r.children == []
    ensures r.handler == Help(commands, options)
  {
    Command(HelpName, Some(HelpDescription), [], Help(commands, options))
  }
}

=== FILE: help.dfy ===
/** The built-in `HelpCommand`: it turns its snapshot of the command tree
    and of the option registry into two index sheets, "Commands:" and
    "Options:", printed with one shared column width. */
module Help {
  import opened Wrappers
  import Strings
  import opened Assoc
  import opened Colors
  import opened Writer
  import opened IndexSheet
  import opened Options
  import opened Commands

  /** PHP truthiness of a string: "" and "0" are false. */
  predicate Truthy(s: string) {
    s != "" && s != "0"
  }

  /** `($parentName ? $parentName . ':' : '') . $name`. */
  function ItemName(parent: Option<string>, name: string): string {
    match parent
    case Some(p) => if Truthy(p) then p + ":" + name else name
    case None => name
  }

  /** An item under no parent, or under a falsy parent name, keeps the bare
      command name; under a truthy parent it splits at its colons into the
      parent's segments followed by the command's: the listed name is the
      action path. */
  lemma ItemNameSegments(parent: Option<string>, name: string)
    ensures parent.None? || !Truthy(parent.value) ==> ItemName(parent, name) == name
    ensures parent.Some? && Truthy(parent.value) ==>
              Strings.Split(ItemName(parent, name), ':') == Strings.Split(parent.value, ':') + Strings.Split(name, ':')
  {
    if parent.Some? && Truthy(parent.value) {
      assert ItemName(parent, name) == parent.value + [':'] + name;
      Strings.SplitConcat(parent.value, name, ':');
    }
  }

  /** `buildCommandItems($commands, $parentName)`: one item per command in
      map order, named after its parent item, described by
      `getDescription()`, with children exactly when its child map is not
      empty. */
  function BuildCommandItems(commands: seq<(string, Command)>, parent: Option<string>): (items: seq<IndexItem>)
    ensures |items| == |commands|
    ensures forall i :: 0 <= i < |commands| ==> items[i].name == ItemName(parent, commands[i].1.name)
    ensures forall i :: 0 <= i < |commands| ==> items[i].description == GetDescription(commands[i].1)
    ensures forall i :: 0 <= i < |commands| ==> (items[i].Node? <==> commands[i].1.children != [])
    decreases commands, 0
  {
    if commands == [] then []
    else
      var p := commands[0];
      assert p.1 < p;
      var rest := BuildCommandItems(commands[1..], parent);
      assert forall i :: 1 <= i < |commands| ==> commands[i] == commands[1..][i - 1];
      [BuildItem(p.1, parent)] + rest
  }

  function BuildItem(c: Command, parent: Option<string>): (item: IndexItem)
    ensures item.name == ItemName(parent, c.name)
    ensures item.description == GetDescription(c)
    ensures item.Node? <==> c.children != []
    decreases c, 1
  {
    var name := ItemName(parent, c.name);
    if c.children == [] then Leaf(name, GetDescription(c))
    else Node(name, GetDescription(c), BuildCommandItems(c.children, Some(name)))
  }

  /** The `i`-th item is built from the `i`-th command alone; in particular
      a node's children are built with the node's own name as parent. */
  lemma {:induction false} ItemIsBuilt(commands: seq<(string, Command)>, parent: Option<string>, i: nat)
    requires i < |commands|
    ensures BuildCommandItems(commands, parent)[i] == BuildItem(commands[i].1, parent)
    ensures var item := BuildCommandItems(commands, parent)[i];
            item.Node? ==> item.children == BuildCommandItems(commands[i].1.children, Some(item.name))
  {
    var items := BuildCommandItems(commands, parent);
    assert items == [BuildItem(commands[0].1, parent)] + BuildCommandItems(commands[1..], parent);
    if i > 0 {
      ItemIsBuilt(commands[1..], parent, i - 1);
      assert items[i] == BuildCommandItems(commands[1..], parent)[i - 1];
    }
    var c := commands[i].1;
    assert items[i] == BuildItem(c, parent);
    assert items[i].Node? ==> items[i].children == BuildCommandItems(c.children, Some(ItemName(parent, c.name)));
  }

  /** `--name`, preceded by `-s, ` when the option has a shorthand. */
  function OptionLabel(e: OptionEntry): string {
    (if e.shorthand.Some? then "-" + e.shorthand.value + ", " else "") + "--" + e.name
  }

  /** `buildOptionItems($options)`: one leaf per option, in registry order,
      with the description copied unchanged. */
  function BuildOptionItems(options: seq<(string, OptionEntry)>): (items: seq<IndexItem>)
    ensures |items| == |options|
    ensures forall i :: 0 <= i < |options| ==>
      && items[i].Leaf?
      && items[i].description == options[i].1.description
      && (options[i].1.shorthand.None? ==> items[i].name == "--" + options[i].1.name)
      && (options[i].1.shorthand.Some? ==> items[i].name == "-" + options[i].1.shorthand.value + ", --" + options[i].1.name)
  {
    seq(|options|, i requires 0 <= i < |options| => Leaf(OptionLabel(options[i].1), options[i].1.description))
  }

  /** The column width shared by both sheets: the larger of the two sheets'
      own widths. */
  function SharedWidth(commandItems: seq<IndexItem>, optionItems: seq<IndexItem>): (m: nat)
    ensures m >= MaxNameLength(commandItems) && m >= MaxNameLength(optionItems)
    ensures m == MaxNameLength(commandItems) || m == MaxNameLength(optionItems)
  {
    var m := MaxNameLength(commandItems);
    var other := MaxNameLength(optionItems);
    if m < other then other else m
  }

  /** `handle`: the "Commands:" heading, the command rows, an empty line,
      the "Options:" heading and the option rows. Both sheets use the shared
      width, so neither can hit a negative padding. */
  function Handle(w: State, commands: Arr<string, Command>, options: Arr<string, OptionEntry>): (r: IndexOutcome)
    ensures r.complete
    ensures Valid(w) ==> Valid(r.writer)
    ensures !w.isCli ==> r.writer == w
    ensures w.isCli ==>
      var commandItems := BuildCommandItems(commands, None);
      var optionItems := BuildOptionItems(options);
      var m := SharedWidth(commandItems, optionItems);
      r.writer.output
        == w.output + (if w.isProgress then ["\n"] else [])
           + [Colorize(LightBrown, "Commands:") + "\n"] + Terminated(IndexRows(commandItems, 0, m).rows)
           + ["\n"]
           + [Colorize(LightBrown, "Options:") + "\n"] + Terminated(IndexRows(optionItems, 0, m).rows)
  {
    var commandItems := BuildCommandItems(commands, None);
    var optionItems := BuildOptionItems(options);
    var m := SharedWidth(commandItems, optionItems);
    IndexPreOrder(commandItems, 0, m);
    IndexPreOrder(optionItems, 0, m);
    Sheets(w, IndexRows(commandItems, 0, m), IndexRows(optionItems, 0, m))
  }

  /** One sheet: its light-brown heading, then the rows of its index. */
  function Sheet(w: State, title: string, rows: Rows): IndexOutcome {
    Emit(WriteColored(w, LightBrown, title), rows)
  }

  /** A heading line followed by rows. */
  lemma HeadedRows(w: State, heading: string, rows: Rows)
    ensures var r := Emit(Write(w, heading), rows);
            && r.complete == rows.complete
            && (!w.isCli ==> r.writer == w)
            && (w.isCli ==> r.writer.isCli && !r.writer.isProgress)
            && (w.isCli ==> r.writer.output == w.output + (if w.isProgress then ["\n"] else []) + [heading + "\n"] + Terminated(rows.rows))
            && (Valid(w) ==> Valid(r.writer))
  {
    var h := Write(w, heading);
    assert w.isCli ==> h.output == w.output + (if w.isProgress then ["\n"] else []) + [heading + "\n"] && !h.isProgress;
  }

  lemma SheetWrites(w: State, title: string, rows: Rows)
    ensures Sheet(w, title, rows).complete == rows.complete
    ensures !w.isCli ==> Sheet(w, title, rows).writer == w
    ensures w.isCli ==> Sheet(w, title, rows).writer.isCli && !Sheet(w, title, rows).writer.isProgress
    ensures w.isCli ==>
      Sheet(w, title, rows).writer.output
        == w.output + (if w.isProgress then ["\n"] else []) + [Colorize(LightBrown, title) + "\n"] + Terminated(rows.rows)
    ensures Valid(w) ==> Valid(Sheet(w, title, rows).writer)
  {
    HeadedRows(w, Colorize(LightBrown, title), rows);
  }

  /** The writes `handle` makes, given the rows of its two indexes; an
      index that throws ends the command there. */
  function Sheets(w: State, commandRows: Rows, optionRows: Rows): (r: IndexOutcome)
    ensures r.complete == (commandRows.complete && optionRows.complete)
    ensures Valid(w) ==> Valid(r.writer)
    ensures !w.isCli ==> r.writer == w
    ensures w.isCli && commandRows.complete ==>
      r.writer.output
        == w.output + (if w.isProgress then ["\n"] else [])
           + [Colorize(LightBrown, "Commands:") + "\n"] + Terminated(commandRows.rows)
           + ["\n"]
           + [Colorize(LightBrown, "Options:") + "\n"] + Terminated(optionRows.rows)
    ensures w.isCli && !commandRows.complete ==>
      r.writer.output
        == w.output + (if w.isProgress then ["\n"] else [])
           + [Colorize(LightBrown, "Commands:") + "\n"] + Terminated(commandRows.rows)
  {
    var first := Sheet(w, "Commands:", commandRows);
    SheetWrites(w, "Commands:", commandRows);
    if !first.complete then first
    else
      var gap := Write(first.writer, "");
      assert "" + "\n" == "\n";
      SheetWrites(gap, "Options:", optionRows);
      Sheet(gap, "Options:", optionRows)
  }

  /** Both sheets are laid out on one grid: every row of either is the
      rendering of its item at its depth with the shared width, and every
      prefix, so every description column, has the same length. */
  lemma {:induction false} SheetsShareColumn(commands: Arr<string, Command>, options: Arr<string, OptionEntry>)
    ensures var commandItems := BuildCommandItems(commands, None);
            var optionItems := BuildOptionItems(options);
            var m := SharedWidth(commandItems, optionItems);
            && RowsMatch(IndexRows(commandItems, 0, m).rows, Flatten(commandItems, 0), m)
            && RowsMatch(IndexRows(optionItems, 0, m).rows, Flatten(optionItems, 0), m)
            && (forall i :: 0 <= i < |Flatten(commandItems, 0)| ==>
                  |Prefix(Flatten(commandItems, 0)[i].0, Flatten(commandItems, 0)[i].1, m)| == m + 6 + |Code(Green)| + |Code(Reset)|)
            && (forall i :: 0 <= i < |Flatten(optionItems, 0)| ==>
                  |Prefix(Flatten(optionItems, 0)[i].0, Flatten(optionItems, 0)[i].1, m)| == m + 6 + |Code(Green)| + |Code(Reset)|)
  {
    var commandItems := BuildCommandItems(commands, None);
    var optionItems := BuildOptionItems(options);
    var m := SharedWidth(commandItems, optionItems);
    IndexPreOrder(commandItems, 0, m);
    IndexPreOrder(optionItems, 0, m);
    PaddingNeverNegative(commandItems, m);
    PaddingNeverNegative(optionItems, m);
  }

  /** A parent item named "" or "0" is falsy and adds no prefix to its
      children's names. */
  lemma FalsyParentAddsNoPrefix(parentName: string, child: Command)
    requires !Truthy(parentName)
    ensures BuildCommandItems([(child.name, child)], Some(parentName))[0].name == child.name
  {
  }
}

=== FILE: indexsheet.dfy ===
/** The index sheet of the `Writer`: a recursive listing of named items whose
    descriptions all start in one column. `getMaxNameLengthFromIndex`
    reserves 8 extra characters per nesting level; `index` pads each name to
    the column and indents continuation lines of a description to it. */
module IndexSheet {
  import opened Wrappers
  import opened Strings
  import opened Colors
  import opened Writer

  const IndentLength: nat := 4

  /** An index item. `Node` is an item whose `children` key is set, even to
      an empty list; `Leaf` is one without it. */
  datatype IndexItem =
    | Leaf(name: string, description: string)
    | Node(name: string, description: string, children: seq<IndexItem>)

  /** `getIndent($count)`. */
  function Indent(count: nat): (r: string)
    ensures |r| == count * IndentLength
    ensures forall i :: 0 <= i < |r| ==> r[i] == ' '
  {
    Spaces(count * IndentLength)
  }

  /** What one item contributes to the column width: its name, or its
      children's width plus 8 when that is larger. */
  function Width(item: IndexItem): (w: nat)
    ensures w >= |item.name|
    ensures item.Node? ==> w >= MaxNameLength(item.children) + 8
    ensures w == |item.name| || (item.Node? && w == MaxNameLength(item.children) + 8)
    decreases item, 1
  {
    if item.Leaf? then |item.name|
    else
      var fromChildren := MaxNameLength(item.children) + 8;
      if fromChildren > |item.name| then fromChildren else |item.name|
  }

  /** `getMaxNameLengthFromIndex($items)`. */
  function MaxNameLength(items: seq<IndexItem>): (r: nat)
    ensures forall i :: 0 <= i < |items| ==> Width(items[i]) <= r
    ensures items == [] ==> r == 0
    decreases items, 0
  {
    if items == [] then 0
    else
      var first := Width(items[0]);
      var rest := MaxNameLength(items[1..]);
      assert forall i :: 1 <= i < |items| ==> items[i] == items[1..][i - 1];
      if first > rest then first else rest
  }

  /** The maximum is attained: a non-empty list has an item as wide as it. */
  lemma {:induction false} MaxNameLengthAttained(items: seq<IndexItem>)
    requires items != []
    ensures exists i :: 0 <= i < |items| && Width(items[i]) == MaxNameLength(items)
  {
    if |items| > 1 && Width(items[0]) <= MaxNameLength(items[1..]) {
      MaxNameLengthAttained(items[1..]);
      var j :| 0 <= j < |items[1..]| && Width(items[1..][j]) == MaxNameLength(items[1..]);
      assert items[j + 1] == items[1..][j];
    } else {
      assert Width(items[0]) == MaxNameLength(items);
    }
  }

  /** The items in the order `index` prints them, each with its indent:
      an item, then its children one level deeper, then its next sibling. */
  function Flatten(items: seq<IndexItem>, depth: nat): seq<(IndexItem, nat)>
    decreases items, 0
  {
    if items == [] then []
    else FlattenItem(items[0], depth) + Flatten(items[1..], depth)
  }

  function FlattenItem(item: IndexItem, depth: nat): seq<(IndexItem, nat)>
    decreases item, 1
  {
    [(item, depth)] + if item.Node? then Flatten(item.children, depth + 1) else []
  }

  /** Every name of a nested listing, with 8 characters per level below the
      top, fits in the width `getMaxNameLengthFromIndex` computes. */
  lemma {:induction false} NamesFit(items: seq<IndexItem>, depth: nat)
    ensures forall i :: 0 <= i < |Flatten(items, depth)| ==>
      Flatten(items, depth)[i].1 >= depth &&
      |Flatten(items, depth)[i].0.name| + 8 * Flatten(items, depth)[i].1 <= MaxNameLength(items) + 8 * depth
    decreases items, 0
  {
    if items != [] {
      NamesFitItem(items[0], depth);
      NamesFit(items[1..], depth);
      assert MaxNameLength(items[1..]) <= MaxNameLength(items);
    }
  }

  lemma {:induction false} NamesFitItem(item: IndexItem, depth: nat)
    ensures forall i :: 0 <= i < |FlattenItem(item, depth)| ==>
      FlattenItem(item, depth)[i].1 >= depth &&
      |FlattenItem(item, depth)[i].0.name| + 8 * FlattenItem(item, depth)[i].1 <= Width(item) + 8 * depth
    decreases item, 1
  {
    if item.Node? {
      NamesFit(item.children, depth + 1);
    }
  }

  /** The number of padding spaces after a name (`str_repeat` count). It is
      not clamped: a negative count makes `str_repeat` throw. */
  function Padding(maxLength: int, nameLength: nat, indent: nat): (p: int)
    ensures |Indent(indent)| + nameLength + p == maxLength + IndentLength
  {
    maxLength - nameLength - (indent - 1) * IndentLength
  }

  /** Indent, two-space gutter, green name, padding: everything before the
      description. Its length does not depend on the indent or the name. */
  function Prefix(item: IndexItem, indent: nat, maxLength: int): (r: string)
    requires Padding(maxLength, |item.name|, indent) >= 0
    ensures |r| == maxLength + 6 + |Code(Green)| + |Code(Reset)|
    ensures '\n' !in item.name ==> '\n' !in r
  {
    assert '\n' !in Code(Green) && '\n' !in Code(Reset) by {
      CodeLacks(Green, '\n');
      CodeLacks(Reset, '\n');
    }
    var head := Indent(indent) + "  ";
    var name := Colorize(Green, item.name);
    var pad := Spaces(Padding(maxLength, |item.name|, indent));
    assert |head| == indent * IndentLength + 2;
    head + name + pad
  }

  /** What the prefix holds: the indent, the two-space gutter, the name in
      green, then only padding spaces up to the description column. */
  lemma PrefixContent(item: IndexItem, indent: nat, maxLength: int)
    requires Padding(maxLength, |item.name|, indent) >= 0
    ensures var r := Prefix(item, indent, maxLength);
            var h := |Indent(indent)| + 2;
            var n := |Colorize(Green, item.name)|;
            && r[..h] == Indent(indent) + "  "
            && r[h..h + n] == Colorize(Green, item.name)
            && forall i :: h + n <= i < |r| ==> r[i] == ' '
  {
    var head := Indent(indent) + "  ";
    var name := Colorize(Green, item.name);
    var pad := Spaces(Padding(maxLength, |item.name|, indent));
    assert Prefix(item, indent, maxLength) == head + name + pad;
    assert (head + name + pad)[..|head|] == head;
    assert (head + name + pad)[|head|..|head| + |name|] == name;
  }

  /** The continuation lines of a description: each on a new line, after
      `width` spaces. */
  function Continuation(lines: seq<string>, width: nat): string {
    if lines == [] then ""
    else "\n" + Spaces(width) + lines[0] + Continuation(lines[1..], width)
  }

  /** One row of the sheet (the message given to `write`); `None` when the
      padding count is negative and `str_repeat` throws. */
  function RenderRow(item: IndexItem, indent: nat, maxLength: int): (r: Option<string>)
    ensures r.Some? <==> Padding(maxLength, |item.name|, indent) >= 0
  {
    if Padding(maxLength, |item.name|, indent) < 0 then None
    else
      var prefix := Prefix(item, indent, maxLength);
      var lines := Split(item.description, '\n');
      Some(prefix + lines[0] + Continuation(lines[1..], |prefix|))
  }

  lemma {:induction false} ContinuationSplit(x: string, lines: seq<string>, width: nat)
    requires '\n' !in x
    requires forall i :: 0 <= i < |lines| ==> '\n' !in lines[i]
    ensures Split(x + Continuation(lines, width), '\n')
            == [x] + seq(|lines|, i requires 0 <= i < |lines| => Spaces(width) + lines[i])
    decreases lines
  {
    if lines == [] {
      assert x + Continuation(lines, width) == x;
      SplitNoSep(x, '\n');
    } else {
      var next := Spaces(width) + lines[0];
      ContinuationStep(x, lines, width);
      ContinuationSplit(next, lines[1..], width);
      IndentedCons(lines, width);
    }
  }

  /** One continuation line peeled off: the piece before the first newline
      is `x`, the rest starts with the indented first line. */
  lemma ContinuationStep(x: string, lines: seq<string>, width: nat)
    requires '\n' !in x
    requires lines != []
    ensures Split(x + Continuation(lines, width), '\n')
            == [x] + Split(Spaces(width) + lines[0] + Continuation(lines[1..], width), '\n')
  {
    var next := Spaces(width) + lines[0];
    var rest := Continuation(lines[1..], width);
    ContinuationCons(x, lines, width);
    SplitAfterLine(x, next + rest);
  }

  lemma ContinuationCons(x: string, lines: seq<string>, width: nat)
    requires lines != []
    ensures x + Continuation(lines, width) == x + ['\n'] + (Spaces(width) + lines[0] + Continuation(lines[1..], width))
  {
  }

  lemma SplitAfterLine(x: string, y: string)
    requires '\n' !in x
    ensures Split(x + ['\n'] + y, '\n') == [x] + Split(y, '\n')
  {
    SplitConcat(x, y, '\n');
    SplitNoSep(x, '\n');
  }

  lemma IndentedCons(lines: seq<string>, width: nat)
    requires lines != []
    ensures [Spaces(width) + lines[0]] + seq(|lines| - 1, i requires 0 <= i < |lines| - 1 => Spaces(width) + lines[1..][i])
            == seq(|lines|, i requires 0 <= i < |lines| => Spaces(width) + lines[i])
  {
  }

  /** The layout of one row: split at its newlines, the first line is the
      prefix and the description's first line, and every further line is
      the description's next line after exactly as many spaces as the
      prefix is long. */
  lemma {:induction false} RowLayout(item: IndexItem, indent: nat, maxLength: int)
    requires Padding(maxLength, |item.name|, indent) >= 0
    requires '\n' !in item.name
    ensures var lines := Split(item.description, '\n');
            var parts := Split(RenderRow(item, indent, maxLength).value, '\n');
            && |parts| == |lines|
            && parts[0] == Prefix(item, indent, maxLength) + lines[0]
            && forall i :: 1 <= i < |lines| ==>
                 parts[i] == Spaces(maxLength + 6 + |Code(Green)| + |Code(Reset)|) + lines[i]
  {
    var lines := Split(item.description, '\n');
    var prefix := Prefix(item, indent, maxLength);
    RowUnfolds(item, indent, maxLength);
    PrefixedLayout(prefix, item.description);
    assert |prefix| == maxLength + 6 + |Code(Green)| + |Code(Reset)|;
  }

  lemma RowUnfolds(item: IndexItem, indent: nat, maxLength: int)
    requires Padding(maxLength, |item.name|, indent) >= 0
    ensures var prefix := Prefix(item, indent, maxLength);
            var lines := Split(item.description, '\n');
            RenderRow(item, indent, maxLength) == Some(prefix + lines[0] + Continuation(lines[1..], |prefix|))
  {
  }

  /** The layout of a description placed after a newline-free prefix. */
  lemma {:induction false} PrefixedLayout(prefix: string, description: string)
    requires '\n' !in prefix
    ensures var lines := Split(description, '\n');
            var parts := Split(prefix + lines[0] + Continuation(lines[1..], |prefix|), '\n');
            && |parts| == |lines|
            && parts[0] == prefix + lines[0]
            && forall i :: 1 <= i < |lines| ==> parts[i] == Spaces(|prefix|) + lines[i]
  {
    var lines := Split(description, '\n');
    var first := prefix + lines[0];
    assert '\n' !in first;
    ContinuationSplit(first, lines[1..], |prefix|);
    var parts := Split(first + Continuation(lines[1..], |prefix|), '\n');
    assert forall i :: 1 <= i < |lines| ==> parts[i] == Spaces(|prefix|) + lines[1..][i - 1];
  }

  /** The rows printed so far, and whether the listing finished (false when
      a negative padding count threw part-way). */
  datatype Rows = Rows(rows: seq<string>, complete: bool)

  /** The recursion of `index($items, $indent, $maxLength)`: a zero width is
      replaced by the items' own width, then every item is printed followed
      by its children one level deeper. */
  function IndexRows(items: seq<IndexItem>, indent: nat, maxLength: int): (r: Rows)
    ensures items == [] ==> r == Rows([], true)
    ensures r.complete ==> |r.rows| >= |items|
    decreases items, 1
  {
    var width := if maxLength == 0 then MaxNameLength(items) else maxLength;
    EachRows(items, indent, width)
  }

  function EachRows(items: seq<IndexItem>, indent: nat, maxLength: int): (r: Rows)
    ensures items == [] ==> r == Rows([], true)
    ensures r.complete ==> |r.rows| >= |items|
    decreases items, 0
  {
    if items == [] then Rows([], true)
    else
      var head := ItemRows(items[0], indent, maxLength);
      if !head.complete then head
      else
        var tail := EachRows(items[1..], indent, maxLength);
        Rows(head.rows + tail.rows, tail.complete)
  }

  /** The rows of one item: its own row first, then (for a node) its
      children's; a row that throws prints nothing and stops the listing. */
  function ItemRows(item: IndexItem, indent: nat, maxLength: int): (r: Rows)
    ensures r.complete ==> r.rows != []
    ensures item.Leaf? ==> |r.rows| <= 1 && (r.complete <==> r.rows != [])
    decreases item, 2
  {
    match RenderRow(item, indent, maxLength)
    case None => Rows([], false)
    case Some(row) =>
      if item.Leaf? then Rows([row], true)
      else
        var sub := IndexRows(item.children, indent + 1, maxLength);
        Rows([row] + sub.rows, sub.complete)
  }

  /** The rows are the rendering of the given entries, one for one. */
  predicate RowsMatch(rows: seq<string>, entries: seq<(IndexItem, nat)>, maxLength: int) {
    && |rows| == |entries|
    && forall i :: 0 <= i < |rows| ==> RenderRow(entries[i].0, entries[i].1, maxLength) == Some(rows[i])
  }

  lemma {:induction false} RowsMatchConcat(a: seq<string>, ea: seq<(IndexItem, nat)>, b: seq<string>, eb: seq<(IndexItem, nat)>, maxLength: int)
    requires RowsMatch(a, ea, maxLength) && RowsMatch(b, eb, maxLength)
    ensures RowsMatch(a + b, ea + eb, maxLength)
  {
    PointwiseConcat(a, ea, b, eb, (e: (IndexItem, nat), row: string) => RenderRow(e.0, e.1, maxLength) == Some(row));
  }

  /** A relation that holds pointwise on two pairs of sequences holds
      pointwise on their concatenations. */
  lemma {:induction false} PointwiseConcat<A, B>(a: seq<A>, ea: seq<B>, b: seq<A>, eb: seq<B>, ok: (B, A) -> bool)
    requires |a| == |ea| && |b| == |eb|
    requires forall i :: 0 <= i < |a| ==> ok(ea[i], a[i])
    requires forall i :: 0 <= i < |b| ==> ok(eb[i], b[i])
    ensures forall i :: 0 <= i < |a + b| ==> ok((ea + eb)[i], (a + b)[i])
  {
    forall i | 0 <= i < |a + b|
      ensures ok((ea + eb)[i], (a + b)[i])
    {
      if i >= |a| {
        assert (a + b)[i] == b[i - |a|] && (ea + eb)[i] == eb[i - |a|];
      }
    }
  }

  /** The rows are the rendering of the first entries, one for one. */
  predicate PrefixMatch(rows: seq<string>, entries: seq<(IndexItem, nat)>, maxLength: int) {
    |rows| <= |entries| && RowsMatch(rows, entries[..|rows|], maxLength)
  }

  lemma PrefixConcat(a: seq<string>, ea: seq<(IndexItem, nat)>, b: seq<string>, eb: seq<(IndexItem, nat)>, maxLength: int)
    requires RowsMatch(a, ea, maxLength) && PrefixMatch(b, eb, maxLength)
    ensures PrefixMatch(a + b, ea + eb, maxLength)
  {
    assert (ea + eb)[..|a + b|] == ea + eb[..|b|];
    RowsMatchConcat(a, ea, b, eb[..|b|], maxLength);
  }

  lemma PrefixOfLonger(a: seq<string>, ea: seq<(IndexItem, nat)>, eb: seq<(IndexItem, nat)>, maxLength: int)
    requires PrefixMatch(a, ea, maxLength)
    ensures PrefixMatch(a, ea + eb, maxLength)
  {
    assert (ea + eb)[..|a|] == ea[..|a|];
  }

  /** Whatever the width, the rows `index` prints are the renderings of
      the first entries of the pre-order listing, and the listing is
      complete exactly when every entry was printed; when it is not, it
      stopped at the first entry whose row cannot be rendered (a negative
      padding count): a throw cuts the listing short and nothing is
      printed out of order. */
  lemma IndexRowsPrefix(items: seq<IndexItem>, indent: nat, maxLength: int)
    ensures var width := if maxLength == 0 then MaxNameLength(items) else maxLength;
            var r := IndexRows(items, indent, maxLength);
            var entries := Flatten(items, indent);
            && PrefixMatch(r.rows, entries, width)
            && (r.complete <==> |r.rows| == |entries|)
            && (!r.complete ==> |r.rows| < |entries| && RenderRow(entries[|r.rows|].0, entries[|r.rows|].1, width).None?)
  {
    IndexPrefix(items, indent, maxLength);
    IndexStops(items, indent, maxLength);
  }

  lemma {:induction false} IndexPrefix(items: seq<IndexItem>, indent: nat, maxLength: int)
    ensures var width := if maxLength == 0 then MaxNameLength(items) else maxLength;
            var r := IndexRows(items, indent, maxLength);
            && PrefixMatch(r.rows, Flatten(items, indent), width)
            && (r.complete <==> |r.rows| == |Flatten(items, indent)|)
    decreases items, 1
  {
    EachRowsPrefix(items, indent, if maxLength == 0 then MaxNameLength(items) else maxLength);
  }

  lemma {:induction false} EachRowsPrefix(items: seq<IndexItem>, indent: nat, maxLength: int)
    requires maxLength != 0 || MaxNameLength(items) == 0
    ensures var r := EachRows(items, indent, maxLength);
            && PrefixMatch(r.rows, Flatten(items, indent), maxLength)
            && (r.complete <==> |r.rows| == |Flatten(items, indent)|)
    decreases items, 0
  {
    if items != [] {
      assert Width(items[0]) <= MaxNameLength(items);
      assert MaxNameLength(items[1..]) <= MaxNameLength(items);
      ItemRowsPrefix(items[0], indent, maxLength);
      var head := ItemRows(items[0], indent, maxLength);
      if head.complete {
        EachRowsPrefix(items[1..], indent, maxLength);
      }
      var tail := EachRows(items[1..], indent, maxLength);
      SiblingsPrefix(head.rows, head.complete, FlattenItem(items[0], indent),
                     tail.rows, tail.complete, Flatten(items[1..], indent), maxLength);
    }
  }

  /** The first item's rows, then (if it completed) its siblings'. */
  lemma SiblingsPrefix(a: seq<string>, aComplete: bool, ea: seq<(IndexItem, nat)>,
                       b: seq<string>, bComplete: bool, eb: seq<(IndexItem, nat)>, maxLength: int)
    requires PrefixMatch(a, ea, maxLength) && (aComplete <==> |a| == |ea|)
    requires aComplete ==> PrefixMatch(b, eb, maxLength) && (bComplete <==> |b| == |eb|)
    ensures var r := if !aComplete then Rows(a, aComplete) else Rows(a + b, bComplete);
            && PrefixMatch(r.rows, ea + eb, maxLength)
            && (r.complete <==> |r.rows| == |ea + eb|)
  {
    if !aComplete {
      PrefixOfLonger(a, ea, eb, maxLength);
    } else {
      assert ea[..|a|] == ea;
      PrefixConcat(a, ea, b, eb, maxLength);
    }
  }

  lemma {:induction false} ItemRowsPrefix(item: IndexItem, indent: nat, maxLength: int)
    requires maxLength != 0 || Width(item) == 0
    ensures var r := ItemRows(item, indent, maxLength);
            && PrefixMatch(r.rows, FlattenItem(item, indent), maxLength)
            && (r.complete <==> |r.rows| == |FlattenItem(item, indent)|)
    decreases item, 2
  {
    if RenderRow(item, indent, maxLength).Some? {
      ItemRowsUnfold(item, indent, maxLength);
      if item.Node? {
        IndexPrefix(item.children, indent + 1, maxLength);
        var sub := IndexRows(item.children, indent + 1, maxLength);
        ParentPrefix(RenderRow(item, indent, maxLength).value, (item, indent),
                     sub.rows, sub.complete, Flatten(item.children, indent + 1), maxLength);
      }
    }
  }

  /** A parent's row, then the rows of its children. */
  lemma ParentPrefix(row: string, e: (IndexItem, nat), b: seq<string>, bComplete: bool, eb: seq<(IndexItem, nat)>, maxLength: int)
    requires RenderRow(e.0, e.1, maxLength) == Some(row)
    requires PrefixMatch(b, eb, maxLength) && (bComplete <==> |b| == |eb|)
    ensures PrefixMatch([row] + b, [e] + eb, maxLength) && (bComplete <==> |[row] + b| == |[e] + eb|)
  {
    PrefixConcat([row], [e], b, eb, maxLength);
  }

  /** An incomplete listing stopped at the entry after the rows printed,
      and that entry's row cannot be rendered. */
  predicate StopsAt(rows: seq<string>, complete: bool, entries: seq<(IndexItem, nat)>, maxLength: int) {
    !complete ==> |rows| < |entries| && RenderRow(entries[|rows|].0, entries[|rows|].1, maxLength).None?
  }

  lemma {:induction false} IndexStops(items: seq<IndexItem>, indent: nat, maxLength: int)
    ensures var r := IndexRows(items, indent, maxLength);
            StopsAt(r.rows, r.complete, Flatten(items, indent), if maxLength == 0 then MaxNameLength(items) else maxLength)
    decreases items, 1
  {
    EachStops(items, indent, if maxLength == 0 then MaxNameLength(items) else maxLength);
  }

  lemma {:induction false} EachStops(items: seq<IndexItem>, indent: nat, maxLength: int)
    requires maxLength != 0 || MaxNameLength(items) == 0
    ensures var r := EachRows(items, indent, maxLength);
            StopsAt(r.rows, r.complete, Flatten(items, indent), maxLength)
    decreases items, 0
  {
    if items != [] {
      assert Width(items[0]) <= MaxNameLength(items);
      assert MaxNameLength(items[1..]) <= MaxNameLength(items);
      ItemStops(items[0], indent, maxLength);
      ItemRowsPrefix(items[0], indent, maxLength);
      var head := ItemRows(items[0], indent, maxLength);
      if head.complete {
        EachStops(items[1..], indent, maxLength);
      }
      var tail := EachRows(items[1..], indent, maxLength);
      SiblingsStop(head.rows, head.complete, FlattenItem(items[0], indent),
                   tail.rows, tail.complete, Flatten(items[1..], indent), maxLength);
    }
  }

  /** The first item's rows stop where it stopped; if it completed, the
      siblings' rows stop where they stopped, shifted past it. */
  lemma SiblingsStop(a: seq<string>, aComplete: bool, ea: seq<(IndexItem, nat)>,
                     b: seq<string>, bComplete: bool, eb: seq<(IndexItem, nat)>, maxLength: int)
    requires |a| <= |ea| && (aComplete <==> |a| == |ea|) && StopsAt(a, aComplete, ea, maxLength)
    requires aComplete ==> StopsAt(b, bComplete, eb, maxLength)
    ensures var r := if !aComplete then Rows(a, aComplete) else Rows(a + b, bComplete);
            StopsAt(r.rows, r.complete, ea + eb, maxLength)
  {
    if aComplete && !bComplete {
      assert (ea + eb)[|a + b|] == eb[|b|];
    } else if !aComplete {
      assert (ea + eb)[|a|] == ea[|a|];
    }
  }

  lemma {:induction false} ItemStops(item: IndexItem, indent: nat, maxLength: int)
    requires maxLength != 0 || Width(item) == 0
    ensures var r := ItemRows(item, indent, maxLength);
            StopsAt(r.rows, r.complete, FlattenItem(item, indent), maxLength)
    decreases item, 2
  {
    if RenderRow(item, indent, maxLength).Some? {
      ItemRowsUnfold(item, indent, maxLength);
      if item.Node? {
        IndexStops(item.children, indent + 1, maxLength);
        var sub := IndexRows(item.children, indent + 1, maxLength);
        ParentStop(RenderRow(item, indent, maxLength).value, (item, indent),
                   sub.rows, sub.complete, Flatten(item.children, indent + 1), maxLength);
      }
    }
  }

  /** A parent's row, then children's rows that stop where they stopped. */
  lemma ParentStop(row: string, e: (IndexItem, nat), b: seq<string>, bComplete: bool, eb: seq<(IndexItem, nat)>, maxLength: int)
    requires StopsAt(b, bComplete, eb, maxLength)
    ensures StopsAt([row] + b, bComplete, [e] + eb, maxLength)
  {
    if !bComplete {
      assert ([e] + eb)[|[row] + b|] == eb[|b|];
    }
  }

  /** With a width at least the items' own (plus 8 per level of indent),
      `index` never throws, and prints exactly one row per item in
      pre-order: parent first, then its children one level deeper, all
      with the same width. */
  lemma {:induction false} IndexPreOrder(items: seq<IndexItem>, indent: nat, maxLength: int)
    requires maxLength >= MaxNameLength(items) + 8 * indent
    ensures IndexRows(items, indent, maxLength).complete
    ensures RowsMatch(IndexRows(items, indent, maxLength).rows, Flatten(items, indent), maxLength)
    decreases items, 1
  {
    EachPreOrder(items, indent, maxLength);
  }

  lemma {:induction false} EachPreOrder(items: seq<IndexItem>, indent: nat, maxLength: int)
    requires maxLength >= MaxNameLength(items) + 8 * indent
    ensures EachRows(items, indent, maxLength).complete
    ensures RowsMatch(EachRows(items, indent, maxLength).rows, Flatten(items, indent), maxLength)
    decreases items, 0
  {
    if items != [] {
      assert Width(items[0]) <= MaxNameLength(items);
      ItemPreOrder(items[0], indent, maxLength);
      EachPreOrder(items[1..], indent, maxLength);
      RowsMatchConcat(ItemRows(items[0], indent, maxLength).rows, FlattenItem(items[0], indent),
                      EachRows(items[1..], indent, maxLength).rows, Flatten(items[1..], indent), maxLength);
    }
  }

  lemma {:induction false} ItemPreOrder(item: IndexItem, indent: nat, maxLength: int)
    requires maxLength >= Width(item) + 8 * indent
    ensures ItemRows(item, indent, maxLength).complete
    ensures RowsMatch(ItemRows(item, indent, maxLength).rows, FlattenItem(item, indent), maxLength)
    decreases item, 2
  {
    RoomyItemRenders(item, indent, maxLength);
    ItemRowsUnfold(item, indent, maxLength);
    if item.Node? {
      IndexPreOrder(item.children, indent + 1, maxLength);
      ParentRows(RenderRow(item, indent, maxLength).value, (item, indent),
                 IndexRows(item.children, indent + 1, maxLength).rows, Flatten(item.children, indent + 1), maxLength);
    } else {
      ParentRows(RenderRow(item, indent, maxLength).value, (item, indent), [], [], maxLength);
    }
  }

  /** A parent's row, then rows that match its children. */
  lemma ParentRows(row: string, e: (IndexItem, nat), b: seq<string>, eb: seq<(IndexItem, nat)>, maxLength: int)
    requires RenderRow(e.0, e.1, maxLength) == Some(row)
    requires RowsMatch(b, eb, maxLength)
    ensures RowsMatch([row] + b, [e] + eb, maxLength)
  {
    RowsMatchConcat([row], [e], b, eb, maxLength);
  }

  lemma RoomyItemRenders(item: IndexItem, indent: nat, maxLength: int)
    requires maxLength >= Width(item) + 8 * indent
    ensures RenderRow(item, indent, maxLength).Some?
  {
    assert Padding(maxLength, |item.name|, indent) >= 4 * indent + 4;
  }

  /** The rows of an item whose own row renders: that row, then (for a
      node) the rows of its children one level deeper. */
  lemma ItemRowsUnfold(item: IndexItem, indent: nat, maxLength: int)
    requires RenderRow(item, indent, maxLength).Some?
    ensures var row := RenderRow(item, indent, maxLength).value;
            && (item.Leaf? ==> ItemRows(item, indent, maxLength) == Rows([row], true))
            && (item.Node? ==>
                  var sub := IndexRows(item.children, indent + 1, maxLength);
                  ItemRows(item, indent, maxLength) == Rows([row] + sub.rows, sub.complete))
  {
  }

  /** Every row printed for a listing whose width suffices has a padding
      count of at least `4k + 4` at indent `k`, and so a prefix of the same
      length whatever its depth and name. */
  lemma {:induction false} PaddingNeverNegative(items: seq<IndexItem>, maxLength: int)
    requires maxLength >= MaxNameLength(items)
    ensures forall i :: 0 <= i < |Flatten(items, 0)| ==>
      var (item, k) := Flatten(items, 0)[i];
      && Padding(maxLength, |item.name|, k) >= 4 * k + 4
      && |Prefix(item, k, maxLength)| == maxLength + 6 + |Code(Green)| + |Code(Reset)|
  {
    NamesFit(items, 0);
  }

  /** The result of `index`: the writer after the rows were written, and
      whether every row was. */
  datatype IndexOutcome = IndexOutcome(writer: State, complete: bool)

  /** `index($items, $indent, $maxLength)`. */
  function Index(w: State, items: seq<IndexItem>, indent: nat, maxLength: int): (r: IndexOutcome)
    ensures r.complete == IndexRows(items, indent, maxLength).complete
    ensures w.isCli ==> (r.writer.output
      == w.output + (if w.isProgress && IndexRows(items, indent, maxLength).rows != [] then ["\n"] else [])
         + Terminated(IndexRows(items, indent, maxLength).rows))
    ensures w.isCli ==> r.writer.isCli && r.writer.isProgress == (w.isProgress && IndexRows(items, indent, maxLength).rows == [])
    ensures !w.isCli ==> r.writer == w
    ensures Valid(w) ==> Valid(r.writer)
  {
    Emit(w, IndexRows(items, indent, maxLength))
  }

  /** Echoing rows as they are produced: the rows before a throw stay
      printed. */
  function Emit(w: State, rows: Rows): (r: IndexOutcome)
    ensures r.complete == rows.complete
    ensures w.isCli ==> r.writer.output == w.output + (if w.isProgress && rows.rows != [] then ["\n"] else []) + Terminated(rows.rows)
    ensures w.isCli ==> r.writer.isCli && r.writer.isProgress == (w.isProgress && rows.rows == [])
    ensures !w.isCli ==> r.writer == w
    ensures Valid(w) ==> Valid(r.writer)
  {
    IndexOutcome(WriteAll(w, rows.rows), rows.complete)
  }

  /** The padding is not clamped: a top-level item whose padding count is
      negative throws, so the listing stops there unfinished. */
  lemma {:induction false} NegativePaddingStops(items: seq<IndexItem>, indent: nat, maxLength: int, k: nat)
    requires k < |items| && Padding(maxLength, |items[k].name|, indent) < 0
    ensures !EachRows(items, indent, maxLength).complete
    decreases k
  {
    if k > 0 && ItemRows(items[0], indent, maxLength).complete {
      NegativePaddingStops(items[1..], indent, maxLength, k - 1);
    }
  }

  /** Worked example: with the explicit width 1, `ab` is printed and
      `toolong` throws. */
  lemma ExampleNarrowWidth()
    ensures IndexRows([Leaf("ab", ""), Leaf("toolong", "")], 0, 1)
            == Rows([RenderRow(Leaf("ab", ""), 0, 1).value], false)
  {
    var items := [Leaf("ab", ""), Leaf("toolong", "")];
    assert items[1..] == [Leaf("toolong", "")];
    assert Padding(1, 7, 0) < 0;
  }

  /** Worked example: `help`, and `db` with a child `migrate`. */
  lemma ExampleWidth()
    ensures MaxNameLength([Leaf("help", ""), Node("db", "", [Leaf("migrate", "")])]) == 15
  {
    var inner := [Leaf("migrate", "")];
    assert MaxNameLength(inner) == 7 by {
      assert inner[1..] == [];
    }
    var items := [Leaf("help", ""), Node("db", "", inner)];
    assert items[1..][1..] == [];
    assert Width(items[1]) == 15;
  }
}

=== FILE: options.dfy ===
/** The option registry of `CLI`: `options` maps an option name to its
    descriptor and `optionShorthands` maps a shorthand back to the name that
    owns it. `registerOption` first drops an existing entry of the same name
    together with its shorthand binding, then refuses a shorthand that is
    still bound, and otherwise stores the binding and the descriptor. */
module Options {
  import opened Wrappers
  import opened Assoc

  datatype OptionEntry = OptionEntry(name: string, description: string, shorthand: Option<string>)

  datatype Registry = Registry(options: Arr<string, OptionEntry>, shorthands: Arr<string, string>)

  const Empty: Registry := Registry([], [])

  /** The outcome of `registerOption`: the registry after a normal return,
      or the registry as it stands when the resolution error is thrown. */
  datatype Registration =
    | Registered(registry: Registry)
    | ShorthandTaken(registry: Registry, shorthand: string)

  /** Option `name` is registered with shorthand `s`. */
  predicate Owns(options: Arr<string, OptionEntry>, name: string, s: string) {
    Get(options, name).Some? && Get(options, name).value.shorthand == Some(s)
  }

  /** The two maps agree: every option is stored under its own name, every
      shorthand an option declares is bound to that option, and every bound
      shorthand belongs to the option it names. */
  ghost predicate Consistent(reg: Registry) {
    && (forall n :: Get(reg.options, n).Some? ==>
          && Get(reg.options, n).value.name == n
          && (Get(reg.options, n).value.shorthand.Some? ==>
                Get(reg.shorthands, Get(reg.options, n).value.shorthand.value) == Some(n)))
    && (forall s :: Get(reg.shorthands, s).Some? ==> Owns(reg.options, Get(reg.shorthands, s).value, s))
  }

  lemma EmptyConsistent()
    ensures Consistent(Empty)
  {
  }

  /** The key `unset($this->optionShorthands[...])` uses: PHP turns a null
      key into the empty string. */
  function ShorthandKey(s: Option<string>): string {
    OrElse(s, "")
  }

  /** The as-written release unsets key `s`: `name` is registered, and `s`
      is its shorthand, or "" when it has none. */
  predicate Unsets(reg: Registry, name: string, s: string) {
    Get(reg.options, name).Some? && s == ShorthandKey(Get(reg.options, name).value.shorthand)
  }

  /** src/CLI.php:82-86 as written: drop the existing entry of `name` and unset
      the shorthand key of its descriptor, which is "" when it has none. */
  function ReleaseAsWritten(reg: Registry, name: string): (r: Registry)
    ensures forall s :: Get(r.shorthands, s) == if Unsets(reg, name, s) then None else Get(reg.shorthands, s)
    ensures Get(r.options, name) == None
    ensures forall n :: n != name ==> Get(r.options, n) == Get(reg.options, n)
    ensures Get(reg.options, name).None? ==> r.shorthands == reg.shorthands
    ensures Get(reg.options, name).Some? && Get(reg.options, name).value.shorthand.None? ==>
              Get(r.shorthands, "") == None
    ensures forall s :: Get(r.shorthands, s).Some? ==> Get(r.shorthands, s) == Get(reg.shorthands, s)
  {
    match Get(reg.options, name)
    case None => reg
    case Some(e) => Registry(Remove(reg.options, name), Remove(reg.shorthands, ShorthandKey(e.shorthand)))
  }

  /** The release as intended: only a shorthand the option actually has is
      unbound. */
  function Release(reg: Registry, name: string): (r: Registry)
    ensures Get(r.options, name) == None
    ensures forall n :: n != name ==> Get(r.options, n) == Get(reg.options, n)
    ensures Consistent(reg) ==> Consistent(r)
    ensures Consistent(reg) ==> forall s :: Get(r.shorthands, s) != Some(name)
    ensures Consistent(reg) ==> forall s :: Get(r.shorthands, s).Some? ==>
              Get(reg.shorthands, s) == Get(r.shorthands, s)
    ensures Consistent(reg) ==> forall s :: Get(r.shorthands, s).None? && Get(reg.shorthands, s).Some? ==>
              Get(reg.shorthands, s) == Some(name)
  {
    match Get(reg.options, name)
    case None => reg
    case Some(e) =>
      var shorthands := if e.shorthand.Some? then Remove(reg.shorthands, e.shorthand.value) else reg.shorthands;
      var r := Registry(Remove(reg.options, name), shorthands);
      ReleaseFacts(reg, name, e, r);
      r
  }

  lemma ReleaseFacts(reg: Registry, name: string, e: OptionEntry, r: Registry)
    requires Get(reg.options, name) == Some(e)
    requires r.options == Remove(reg.options, name)
    requires r.shorthands == if e.shorthand.Some? then Remove(reg.shorthands, e.shorthand.value) else reg.shorthands
    ensures Consistent(reg) ==> Consistent(r)
    ensures Consistent(reg) ==> forall s :: Get(r.shorthands, s) != Some(name)
    ensures Consistent(reg) ==> forall s :: Get(r.shorthands, s).Some? ==>
              Get(reg.shorthands, s) == Get(r.shorthands, s)
    ensures Consistent(reg) ==> forall s :: Get(r.shorthands, s).None? && Get(reg.shorthands, s).Some? ==>
              Get(reg.shorthands, s) == Some(name)
  {
    if Consistent(reg) {
      forall s | Get(r.shorthands, s).Some?
        ensures Get(reg.shorthands, s) == Get(r.shorthands, s)
        ensures Get(r.shorthands, s) != Some(name)
        ensures Owns(r.options, Get(r.shorthands, s).value, s)
      {
        assert e.shorthand.Some? ==> s != e.shorthand.value;
        var owner := Get(reg.shorthands, s).value;
        assert Owns(reg.options, owner, s);
      }
    }
  }

  /** src/CLI.php:88-102: refuse a shorthand that is bound, else bind it and store
      the descriptor. */
  function Bind(reg: Registry, name: string, description: string, shorthand: Option<string>): Registration {
    if shorthand.Some? && shorthand.value in Keys(reg.shorthands) then
      ShorthandTaken(reg, shorthand.value)
    else
      var shorthands := if shorthand.Some? then Put(reg.shorthands, shorthand.value, name) else reg.shorthands;
      Registered(Registry(Put(reg.options, name, OptionEntry(name, description, shorthand)), shorthands))
  }

  /** `registerOption` exactly as written, including the release of the
      "" shorthand key for an option registered without a shorthand. */
  function RegisterAsWritten(reg: Registry, name: string, description: string, shorthand: Option<string>): (r: Registration)
    ensures r.Registered? ==> Get(r.registry.options, name) == Some(OptionEntry(name, description, shorthand))
    ensures r.Registered? && shorthand.Some? ==> Get(r.registry.shorthands, shorthand.value) == Some(name)
    ensures r.ShorthandTaken? ==> shorthand == Some(r.shorthand) && Get(r.registry.options, name) == None
    ensures forall n :: n != name ==> Get(r.registry.options, n) == Get(reg.options, n)
    ensures r.Registered? && name !in Keys(reg.options) ==> Keys(r.registry.options) == Keys(reg.options) + [name]
    ensures Get(reg.options, name).Some? && Get(reg.options, name).value.shorthand.None? && shorthand.None? ==>
              Get(r.registry.shorthands, "") == None
    ensures r.ShorthandTaken? <==>
              shorthand.Some? && Get(reg.shorthands, shorthand.value).Some? && !Unsets(reg, name, shorthand.value)
    ensures forall s :: shorthand != Some(s) ==>
              Get(r.registry.shorthands, s) == if Unsets(reg, name, s) then None else Get(reg.shorthands, s)
  {
    Bind(ReleaseAsWritten(reg, name), name, description, shorthand)
  }

  /** `registerOption` with the release corrected. */
  function Register(reg: Registry, name: string, description: string, shorthand: Option<string>): (r: Registration)
    ensures r.Registered? ==> Get(r.registry.options, name) == Some(OptionEntry(name, description, shorthand))
    ensures r.Registered? && shorthand.Some? ==> Get(r.registry.shorthands, shorthand.value) == Some(name)
    ensures r.ShorthandTaken? ==> shorthand == Some(r.shorthand)
    ensures r.ShorthandTaken? && name !in Keys(reg.options) ==> r.registry == reg
    ensures r.ShorthandTaken? ==> Get(r.registry.options, name) == None
    ensures forall n :: n != name ==> Get(r.registry.options, n) == Get(reg.options, n)
    ensures r.Registered? && name !in Keys(reg.options) ==> Keys(r.registry.options) == Keys(reg.options) + [name]
    ensures Consistent(reg) ==> Consistent(r.registry)
    ensures Consistent(reg) ==>
              (r.ShorthandTaken? <==>
                 shorthand.Some? && Get(reg.shorthands, shorthand.value).Some?
                 && Get(reg.shorthands, shorthand.value) != Some(name))
  {
    var released := Release(reg, name);
    BindConsistent(released, name, description, shorthand);
    Bind(released, name, description, shorthand)
  }

  lemma BindConsistent(reg: Registry, name: string, description: string, shorthand: Option<string>)
    ensures (&& Consistent(reg)
             && Get(reg.options, name) == None
             && forall s :: Get(reg.shorthands, s) != Some(name))
            ==> Consistent(Bind(reg, name, description, shorthand).registry)
  {
    var r := Bind(reg, name, description, shorthand);
    if r.Registered? && Consistent(reg) && Get(reg.options, name) == None
       && forall s :: Get(reg.shorthands, s) != Some(name) {
      var opts := r.registry.options;
      var shs := r.registry.shorthands;
      forall n | Get(opts, n).Some?
        ensures Get(opts, n).value.name == n
        ensures Get(opts, n).value.shorthand.Some? ==>
                  Get(shs, Get(opts, n).value.shorthand.value) == Some(n)
      {
        if n != name {
          var e := Get(reg.options, n).value;
          if e.shorthand.Some? {
            assert Get(reg.shorthands, e.shorthand.value) == Some(n);
            assert shorthand.Some? ==> shorthand.value != e.shorthand.value;
          }
        }
      }
      forall s | Get(shs, s).Some?
        ensures Owns(opts, Get(shs, s).value, s)
      {
        if shorthand != Some(s) {
          assert Get(shs, s) == Get(reg.shorthands, s);
          assert Owns(reg.options, Get(reg.shorthands, s).value, s);
        }
      }
    }
  }

  /** A registration that throws has already released the option: its
      entry is gone and no shorthand is bound to it any more. */
  lemma TakenLeavesNoTrace(reg: Registry, name: string, description: string, shorthand: Option<string>)
    requires Consistent(reg)
    requires Register(reg, name, description, shorthand).ShorthandTaken?
    ensures var after := Register(reg, name, description, shorthand).registry;
            Get(after.options, name) == None && forall s :: Get(after.shorthands, s) != Some(name)
  {
  }

  /** At most one option owns a given shorthand. */
  lemma OwnerIsUnique(reg: Registry, a: string, b: string, s: string)
    requires Consistent(reg)
    requires Owns(reg.options, a, s) && Owns(reg.options, b, s)
    ensures a == b
  {
    assert Get(reg.shorthands, s) == Some(a);
  }

  /** Re-registering an option with the shorthand it already has succeeds:
      its own binding was released first. */
  lemma {:induction false} RebindOwnShorthand(reg: Registry, name: string, description: string, s: string)
    requires Consistent(reg) && Owns(reg.options, name, s)
    ensures Register(reg, name, description, Some(s)).Registered?
  {
    assert Get(reg.shorthands, s) == Some(name);
  }

  /** Re-registering an option with another shorthand (or none) frees its
      old one, so a later registration may take it. */
  lemma {:induction false} ReRegisterFreesShorthand(reg: Registry, name: string, description: string,
                                                  shorthand: Option<string>, s: string)
    requires Consistent(reg) && Owns(reg.options, name, s) && shorthand != Some(s)
    ensures Get(Register(reg, name, description, shorthand).registry.shorthands, s) == None
  {
    var released := Release(reg, name);
    assert Get(reg.shorthands, s) == Some(name);
    assert Get(released.shorthands, s) == None;
  }

  /** A re-registered option moves to the end of the listing order (unset
      followed by insert); the others keep their order. */
  lemma {:induction false} ReRegisterMovesToEnd(reg: Registry, name: string, description: string, shorthand: Option<string>)
    requires name in Keys(reg.options)
    requires Register(reg, name, description, shorthand).Registered?
    ensures var i := Find(reg.options, name);
            Keys(Register(reg, name, description, shorthand).registry.options)
              == Keys(reg.options)[..i] + Keys(reg.options)[i + 1..] + [name]
  {
    RemovePutMovesToEnd(reg.options, name, OptionEntry(name, description, shorthand));
  }

  /** The as-written release agrees with the corrected one except when an
      option without a shorthand is re-registered while some option holds
      the "" shorthand. */
  lemma AsWrittenAgrees(reg: Registry, name: string, description: string, shorthand: Option<string>)
    requires Get(reg.options, name).None? || Get(reg.options, name).value.shorthand.Some?
             || "" !in Keys(reg.shorthands)
    ensures RegisterAsWritten(reg, name, description, shorthand) == Register(reg, name, description, shorthand)
  {
  }

  /** The registry of the discrepancy below: option `a` holds the ""
      shorthand and option `b` has none. */
  function Witness(a: string, b: string): Registry
    requires a != b
  {
    Registry([(a, OptionEntry(a, "", Some(""))), (b, OptionEntry(b, "", None))], [("", a)])
  }

  lemma WitnessConsistent(a: string, b: string)
    requires a != b
    ensures Consistent(Witness(a, b))
  {
    var reg := Witness(a, b);
    assert reg.options[0].0 == a && reg.options[1].0 == b;
    assert reg.shorthands[0].0 == "";
    forall n | Get(reg.options, n).Some?
      ensures n == a || n == b
    {
    }
  }

  /** As written, re-registering `b` (which has no shorthand) unsets the ""
      key and so drops `a`'s binding. */
  lemma AsWrittenDropsBinding(a: string, b: string)
    requires a != b
    ensures RegisterAsWritten(Witness(a, b), b, "", None).registry == Registry(Witness(a, b).options, [])
  {
    var reg := Witness(a, b);
    var entry := OptionEntry(b, "", None);
    var kept := reg.options[..1];
    assert Find(reg.options, b) == 1;
    assert Get(reg.options, b) == Some(entry);
    assert Remove(reg.options, b) == kept;
    assert Find(reg.shorthands, "") == 0;
    assert Remove(reg.shorthands, "") == [];
    assert ReleaseAsWritten(reg, b) == Registry(kept, []);
    assert Keys(kept) == [a];
    assert Put(kept, b, entry) == reg.options;
  }

  /** After that, `a` still owns "" but nothing binds it to `a`. */
  lemma AsWrittenBreaksConsistency(a: string, b: string)
    requires a != b
    ensures !Consistent(RegisterAsWritten(Witness(a, b), b, "", None).registry)
  {
    AsWrittenDropsBinding(a, b);
    var after := Registry(Witness(a, b).options, []);
    assert after.options[0].0 == a;
    assert Get(after.options, a) == Some(OptionEntry(a, "", Some("")));
    assert Get(after.shorthands, "") == None;
  }

  /** ... and a third option `c` can then take "" as well. */
  lemma AsWrittenAdmitsSecondOwner(a: string, b: string, c: string)
    requires a != b && c != a && c != b
    ensures RegisterAsWritten(RegisterAsWritten(Witness(a, b), b, "", None).registry, c, "", Some("")).Registered?
  {
    AsWrittenDropsBinding(a, b);
    var after := Registry(Witness(a, b).options, []);
    assert Keys(after.options) == [a, b];
    FreshOptionRegisters(after, c, "");
  }

  /** A new option with an unbound shorthand is registered, as written. */
  lemma FreshOptionRegisters(reg: Registry, name: string, s: string)
    requires Get(reg.options, name) == None && s !in Keys(reg.shorthands)
    ensures RegisterAsWritten(reg, name, "", Some(s)).Registered?
  {
  }

  /** The corrected release leaves `a`'s binding alone. */
  lemma CorrectedKeepsBinding(a: string, b: string)
    requires a != b
    ensures Register(Witness(a, b), b, "", None).registry.shorthands == Witness(a, b).shorthands
  {
    var reg := Witness(a, b);
    assert reg.options[1].0 == b;
    assert Get(reg.options, b) == Some(OptionEntry(b, "", None));
  }

  /** The discrepancy on named options: from a consistent registry in which
      `alpha` holds "", the as-written re-registration of `beta` yields an
      inconsistent one in which `gamma` can take "" too, while the corrected
      one keeps the binding. */
  lemma {:induction false} AsWrittenLosesEmptyShorthand()
    ensures Consistent(Witness("alpha", "beta"))
    ensures !Consistent(RegisterAsWritten(Witness("alpha", "beta"), "beta", "", None).registry)
    ensures RegisterAsWritten(RegisterAsWritten(Witness("alpha", "beta"), "beta", "", None).registry, "gamma", "", Some("")).Registered?
    ensures Register(Witness("alpha", "beta"), "beta", "", None).registry.shorthands == Witness("alpha", "beta").shorthands
  {
    WitnessConsistent("alpha", "beta");
    AsWrittenBreaksConsistency("alpha", "beta");
    AsWrittenAdmitsSecondOwner("alpha", "beta", "gamma");
    CorrectedKeepsBinding("alpha", "beta");
  }

  /** Option `y` cannot take shorthand `s` while `x` holds it; once `x` is
      re-registered with shorthand `t`, it can. */
  lemma Collision(x: string, y: string, s: string, t: string)
    requires x != y && s != t
    ensures var r1 := Register(Empty, x, "", Some(s)).registry;
            && Register(r1, y, "", Some(s)) == ShorthandTaken(r1, s)
            && var r2 := Register(r1, x, "", Some(t)).registry;
               Register(r2, y, "", Some(s)).Registered?
  {
    EmptyConsistent();
    var r1 := Register(Empty, x, "", Some(s)).registry;
    assert Owns(r1.options, x, s);
    assert Get(r1.options, y) == None;
    var r2 := Register(r1, x, "", Some(t)).registry;
    ReRegisterFreesShorthand(r1, x, "", Some(t), s);
  }

  /** Worked example: `compress` cannot take `color`'s shorthand `c`; after
      `color` is re-registered with `z`, it can. */
  lemma ExampleCollision()
    ensures var r1 := Register(Empty, "color", "", Some("c")).registry;
            && Register(r1, "compress", "", Some("c")) == ShorthandTaken(r1, "c")
            && var r2 := Register(r1, "color", "", Some("z")).registry;
               Register(r2, "compress", "", Some("c")).Registered?
  {
    Collision("color", "compress", "c", "z");
  }
}

=== FILE: strings.dfy ===
/** The PHP string primitives the library relies on: `str_repeat`,
    `explode`/`implode` on a one-character separator, integer-to-string
    conversion and character counting. Strings are sequences of characters,
    so `mb_strlen` is `|s|`. */
module Strings {

  /** `str_repeat` of a one-character string, for a count the caller has
      already checked to be non-negative. */
  function Repeat(c: char, n: nat): (r: string)
    ensures |r| == n
    ensures forall i :: 0 <= i < n ==> r[i] == c
  {
    if n == 0 then "" else [c] + Repeat(c, n - 1)
  }

  function Spaces(n: nat): string {
    Repeat(' ', n)
  }

  /** `explode(sep, s)`: the pieces of `s` between separators, in order. */
  function Split(s: string, sep: char): (parts: seq<string>)
    ensures |parts| >= 1
    ensures forall i :: 0 <= i < |parts| ==> sep !in parts[i]
  {
    if s == [] then [""]
    else
      var rest := Split(s[1..], sep);
      if s[0] == sep then [""] + rest
      else [[s[0]] + rest[0]] + rest[1..]
  }

  /** `implode(sep, parts)`. */
  function Join(parts: seq<string>, sep: char): string {
    if |parts| == 0 then ""
    else if |parts| == 1 then parts[0]
    else parts[0] + [sep] + Join(parts[1..], sep)
  }

  /** A string without the separator is a single piece. */
  lemma {:induction false} SplitNoSep(s: string, sep: char)
    requires sep !in s
    ensures Split(s, sep) == [s]
  {
    if s != [] {
      SplitNoSep(s[1..], sep);
      assert [s[0]] + s[1..] == s;
    }
  }

  /** Splitting at one separator splits the two sides independently. */
  lemma {:induction false} SplitConcat(x: string, y: string, sep: char)
    ensures Split(x + [sep] + y, sep) == Split(x, sep) + Split(y, sep)
  {
    var s := x + [sep] + y;
    if x == [] {
      assert s[1..] == y;
    } else {
      assert s[1..] == x[1..] + [sep] + y;
      SplitConcat(x[1..], y, sep);
    }
  }

  /** `implode` undoes `explode`. */
  lemma {:induction false} JoinSplit(s: string, sep: char)
    ensures Join(Split(s, sep), sep) == s
  {
    if s != [] {
      JoinSplit(s[1..], sep);
      var rest := Split(s[1..], sep);
      if s[0] == sep {
        assert Split(s, sep) == [""] + rest;
        assert Join([""] + rest, sep) == "" + [sep] + Join(rest, sep);
      } else {
        if |rest| == 1 {
          assert Split(s, sep) == [[s[0]] + rest[0]];
        } else {
          assert Split(s, sep) == [[s[0]] + rest[0]] + rest[1..];
          assert Join(rest, sep) == rest[0] + [sep] + Join(rest[1..], sep);
        }
      }
    }
  }

  /** `explode` undoes `implode` when no piece contains the separator. */
  lemma {:induction false} SplitJoin(parts: seq<string>, sep: char)
    requires |parts| >= 1
    requires forall i :: 0 <= i < |parts| ==> sep !in parts[i]
    ensures Split(Join(parts, sep), sep) == parts
  {
    if |parts| == 1 {
      SplitNoSep(parts[0], sep);
    } else {
      SplitJoin(parts[1..], sep);
      SplitConcat(parts[0], Join(parts[1..], sep), sep);
      SplitNoSep(parts[0], sep);
    }
  }

  /** Joining one more piece appends the separator and the piece. */
  lemma {:induction false} JoinSnoc(parts: seq<string>, last: string, sep: char)
    requires parts != []
    ensures Join(parts + [last], sep) == Join(parts, sep) + [sep] + last
  {
    var all := parts + [last];
    if |parts| == 1 {
      assert all[1..] == [last];
    } else {
      assert all[1..] == parts[1..] + [last];
      JoinSnoc(parts[1..], last, sep);
    }
  }

  /** Number of occurrences of `c` in `s`. */
  function Count(s: string, c: char): nat {
    if s == [] then 0 else (if s[0] == c then 1 else 0) + Count(s[1..], c)
  }

  lemma {:induction false} CountConcat(a: string, b: string, c: char)
    ensures Count(a + b, c) == Count(a, c) + Count(b, c)
  {
    if a == [] {
      assert a + b == b;
    } else {
      assert (a + b)[1..] == a[1..] + b;
      CountConcat(a[1..], b, c);
    }
  }

  lemma {:induction false} CountAbsent(s: string, c: char)
    requires c !in s
    ensures Count(s, c) == 0
  {
    if s != [] {
      CountAbsent(s[1..], c);
    }
  }

  lemma {:induction false} CountRepeat(c: char, n: nat, d: char)
    ensures Count(Repeat(c, n), d) == if c == d then n else 0
  {
    if n > 0 {
      assert Repeat(c, n)[1..] == Repeat(c, n - 1);
      CountRepeat(c, n - 1, d);
    }
  }

  predicate IsDigit(c: char) {
    '0' <= c <= '9'
  }

  function DigitChar(d: nat): (c: char)
    requires d < 10
    ensures IsDigit(c) && c as int - '0' as int == d
  {
    ['0', '1', '2', '3', '4', '5', '6', '7', '8', '9'][d]
  }

  /** PHP's decimal rendering of a non-negative integer (`'' . $n`). */
  function NatToString(n: nat): (s: string)
    ensures |s| >= 1
    ensures forall i :: 0 <= i < |s| ==> IsDigit(s[i])
    ensures n != 0 ==> s[0] != '0'
    ensures |s| == 1 || s[0] != '0'
  {
    if n < 10 then [DigitChar(n)]
    else NatToString(n / 10) + [DigitChar(n % 10)]
  }

  /** The value of a string of decimal digits. */
  function DigitsValue(s: string): nat
    requires forall i :: 0 <= i < |s| ==> IsDigit(s[i])
  {
    if s == [] then 0
    else
      var last := s[|s| - 1];
      assert IsDigit(last);
      DigitsValue(s[..|s| - 1]) * 10 + (last as int - '0' as int)
  }

  /** Reading the rendered digits back gives the number: the rendering is
      exact. */
  lemma {:induction false} NatToStringValue(n: nat)
    ensures Canonical(NatToString(n))
    ensures DigitsValue(NatToString(n)) == n
  {
    var s := NatToString(n);
    if n < 10 {
      assert s[..0] == [];
    } else {
      NatToStringValue(n / 10);
      assert s[..|s| - 1] == NatToString(n / 10);
    }
  }

  /** A string of digits without a leading zero (a lone "0" aside). */
  predicate Canonical(d: string) {
    && |d| >= 1
    && (forall i :: 0 <= i < |d| ==> IsDigit(d[i]))
    && (|d| == 1 || d[0] != '0')
  }

  /** `s` is the decimal notation of `n`: a minus sign exactly for a
      negative `n`, then canonical digits whose value is the magnitude. */
  predicate Decimal(s: string, n: int) {
    if n < 0 then |s| >= 2 && s[0] == '-' && Canonical(s[1..]) && DigitsValue(s[1..]) == -n
    else Canonical(s) && DigitsValue(s) == n
  }

  /** PHP's decimal rendering of an integer: a minus sign before the
      digits of a negative one. */
  function IntToString(n: int): (s: string)
    ensures Decimal(s, n)
    ensures s[0] == '-' <==> n < 0
  {
    var magnitude := if n < 0 then -n else n;
    var digits := NatToString(magnitude);
    NatToStringValue(magnitude);
    if n < 0 then
      assert ("-" + digits)[1..] == digits;
      "-" + digits
    else digits
  }

  /** A digit string without leading zero that is not empty has a
      positive value. */
  lemma {:induction false} LeadingDigitPositive(d: string)
    requires |d| >= 1 && (forall i :: 0 <= i < |d| ==> IsDigit(d[i])) && d[0] != '0'
    ensures DigitsValue(d) >= 1
    decreases |d|
  {
    if |d| > 1 {
      var init := d[..|d| - 1];
      assert init[0] == d[0];
      LeadingDigitPositive(init);
    }
  }

  /** Digit strings without a leading zero are determined by their value. */
  lemma {:induction false} DigitsUnique(d: string, e: string)
    requires forall i :: 0 <= i < |d| ==> IsDigit(d[i])
    requires forall i :: 0 <= i < |e| ==> IsDigit(e[i])
    requires d == [] || d[0] != '0'
    requires e == [] || e[0] != '0'
    requires DigitsValue(d) == DigitsValue(e)
    ensures d == e
    decreases |d|
  {
    if d == [] && e != [] {
      LeadingDigitPositive(e);
    } else if d != [] && e == [] {
      LeadingDigitPositive(d);
    } else if d != [] {
      var di, ei := d[..|d| - 1], e[..|e| - 1];
      LastDigit(d);
      LastDigit(e);
      DigitsUnique(di, ei);
      assert d == di + [d[|d| - 1]] && e == ei + [e[|e| - 1]];
    }
  }

  /** The last digit is the value modulo ten; the leading digit carries
      over to the rest. */
  lemma LastDigit(d: string)
    requires d != [] && forall i :: 0 <= i < |d| ==> IsDigit(d[i])
    ensures var init := d[..|d| - 1];
            && (forall i :: 0 <= i < |init| ==> IsDigit(init[i]))
            && (init != [] ==> init[0] == d[0])
            && DigitsValue(d) % 10 == d[|d| - 1] as int - '0' as int
            && DigitsValue(d) / 10 == DigitsValue(init)
  {
    assert IsDigit(d[|d| - 1]);
  }

  /** Canonical digit strings are determined by their value. */
  lemma CanonicalUnique(d: string, e: string)
    requires Canonical(d) && Canonical(e) && DigitsValue(d) == DigitsValue(e)
    ensures d == e
  {
    if d[0] == '0' && e[0] != '0' {
      LeadingDigitPositive(e);
    } else if d[0] != '0' && e[0] == '0' {
      LeadingDigitPositive(d);
    } else if d[0] != '0' {
      DigitsUnique(d, e);
    }
  }

  /** A number has exactly one decimal notation, so `IntToString` is the
      only string that `Decimal` admits. */
  lemma DecimalUnique(s: string, t: string, n: int)
    requires Decimal(s, n) && Decimal(t, n)
    ensures s == t
  {
    if n < 0 {
      CanonicalUnique(s[1..], t[1..]);
      assert s == [s[0]] + s[1..] && t == [t[0]] + t[1..];
    } else {
      CanonicalUnique(s, t);
    }
  }
}

=== FILE: wrappers.dfy ===
/** Nullable values: PHP's `?CommandInterface` and `?string` results and
    an absent array key read through `??`. */
module Wrappers {

  datatype Option<T> = None | Some(value: T)

  /** `$x ?? $fallback`: the value if there is one, else the fallback. */
  function OrElse<T>(x: Option<T>, fallback: T): (r: T)
    ensures x.Some? ==> r == x.value
    ensures x.None? ==> r == fallback
  {
    if x.Some? then x.value else fallback
  }
}

=== FILE: writer.dfy ===
/** The `Writer`: terminal output as an explicit state threaded through
    each call. `isCli` is fixed at construction (the SAPI check); a writer
    that is not on the command line prints nothing. `isProgress` records that
    a progress bar was printed and its line is still open (it ended in a
    carriage return). Echoed text is appended to `output`, one chunk per
    `echo`. */
module Writer {
  import opened Wrappers
  import opened Strings
  import opened Colors

  const ProgressLength: nat := 60
  const FullChar: char := '#'
  const EmptyChar: char := '.'

  datatype State = State(isCli: bool, isProgress: bool, output: seq<string>)

  /** The terminal line is left open: the last chunk ended in `\r`. */
  predicate LineOpen(output: seq<string>) {
    |output| > 0 && |output[|output| - 1]| > 0
    && output[|output| - 1][|output[|output| - 1]| - 1] == '\r'
  }

  /** The writer's invariant: a writer off the command line has printed
      nothing and has no progress bar, and on the command line `isProgress`
      is set exactly when the terminal line is open. */
  predicate Valid(w: State) {
    && (!w.isCli ==> !w.isProgress && w.output == [])
    && (w.isProgress <==> LineOpen(w.output))
  }

  /** The constructor, with the SAPI check as a parameter. */
  function New(isCli: bool): (w: State)
    ensures Valid(w)
    ensures w.isCli == isCli && w.output == []
  {
    State(isCli, false, [])
  }

  /** `write($message)`. */
  function Write(w: State, message: string): (r: State)
    ensures !w.isCli ==> r == w
    ensures w.isCli ==> r.isCli && !r.isProgress
    ensures w.isCli ==> r.output == w.output + (if w.isProgress then ["\n"] else []) + [message + "\n"]
    ensures Valid(w) ==> Valid(r)
  {
    if !w.isCli then w
    else
      var closed := if w.isProgress then w.output + ["\n"] else w.output;
      State(true, false, closed + [message + "\n"])
  }

  /** Every message followed by its newline. */
  function Terminated(messages: seq<string>): (r: seq<string>)
    ensures |r| == |messages|
    ensures forall i :: 0 <= i < |messages| ==> r[i] == messages[i] + "\n"
  {
    seq(|messages|, i requires 0 <= i < |messages| => messages[i] + "\n")
  }

  /** A sequence of `write` calls. */
  function WriteAll(w: State, messages: seq<string>): (r: State)
    ensures !w.isCli ==> r == w
    ensures w.isCli ==> r.isCli && r.isProgress == (w.isProgress && messages == [])
    ensures w.isCli ==> r.output == w.output + (if w.isProgress && messages != [] then ["\n"] else []) + Terminated(messages)
    ensures Valid(w) ==> Valid(r)
    decreases |messages|
  {
    if messages == [] then w
    else
      var last := messages[|messages| - 1];
      var init := messages[..|messages| - 1];
      assert Terminated(messages) == Terminated(init) + [last + "\n"];
      Write(WriteAll(w, init), last)
  }

  /** `colorize`: the message between the colour's code and the reset code.
      It does not depend on the writer's state. */
  function Colorize(c: Color, message: string): (r: string)
    ensures |r| == |Code(c)| + |message| + |Code(Reset)|
    ensures r[..|Code(c)|] == Code(c)
    ensures r[|Code(c)|..|Code(c)| + |message|] == message
    ensures r[|r| - |Code(Reset)|..] == Code(Reset)
  {
    Code(c) + message + Code(Reset)
  }

  /** `color`: write the colourised message. */
  function WriteColored(w: State, c: Color, message: string): (r: State)
    ensures !w.isCli ==> r == w
    ensures w.isCli ==> r.isCli && !r.isProgress
    ensures w.isCli ==> r.output == w.output + (if w.isProgress then ["\n"] else []) + [Colorize(c, message) + "\n"]
    ensures Valid(w) ==> Valid(r)
  {
    Write(w, Colorize(c, message))
  }

  /** `floor(a / b)` over the rationals, for a non-zero divisor. */
  function FloorDiv(a: int, b: int): (q: int)
    requires b != 0
    ensures b > 0 ==> q * b <= a < q * b + b
    ensures b < 0 ==> q * b >= a > q * b + b
  {
    if b > 0 then a / b else (-a) / (-b)
  }

  /** Within `0..k * b` the quotient lies within `0..k`. */
  lemma FloorDivWithin(a: int, b: int, k: nat)
    requires b > 0 && 0 <= a <= k * b
    ensures 0 <= FloorDiv(a, b) <= k
  {
    var q := FloorDiv(a, b);
    if q < 0 {
      MulMonotone(q, -1, b);
    }
    if q > k {
      MulMonotone(k + 1, q, b);
    }
  }

  /** `floor(k * current / max)` lies within `0..k` when `current` lies
      within `0..max`. */
  lemma ScaledWithin(current: int, max: int, k: nat)
    requires max != 0
    ensures 0 < max && 0 <= current <= max ==> 0 <= FloorDiv(k * current, max) <= k
  {
    if 0 < max && 0 <= current <= max {
      MulMonotone(current, max, k);
      FloorDivWithin(k * current, max, k);
    }
  }

  lemma MulMonotone(x: int, y: int, b: nat)
    requires x <= y
    ensures x * b <= y * b
  {
  }

  /** The number of filled cells, `floor(60 / max * current)`. Within
      `0..max` it lies within the bar. */
  function Filled(current: int, max: int): (f: int)
    requires max != 0
    ensures max > 0 ==> f * max <= ProgressLength * current < f * max + max
    ensures max < 0 ==> f * max >= ProgressLength * current > f * max + max
    ensures 0 < max && 0 <= current <= max ==> 0 <= f <= ProgressLength
  {
    ScaledWithin(current, max, ProgressLength);
    FloorDiv(ProgressLength * current, max)
  }

  /** `floor(current / max * 100)`. Within `0..max` it is a percentage. */
  function Percent(current: int, max: int): (p: int)
    requires max != 0
    ensures max > 0 ==> p * max <= 100 * current < p * max + max
    ensures max < 0 ==> p * max >= 100 * current > p * max + max
    ensures 0 < max && 0 <= current <= max ==> 0 <= p <= 100
  {
    ScaledWithin(current, max, 100);
    FloorDiv(100 * current, max)
  }

  /** `progress` draws a bar, rather than throwing, exactly when `max` is
      not zero (division) and the filled count is within the bar (both
      `str_repeat` counts are non-negative). */
  predicate Drawable(current: int, max: int) {
    max != 0 && 0 <= Filled(current, max) <= ProgressLength
  }

  lemma InRangeIsDrawable(current: int, max: int)
    requires 0 < max && 0 <= current <= max
    ensures Drawable(current, max)
  {
  }

  /** A character that no colour code contains. */
  lemma CodeLacks(c: Color, ch: char)
    requires ch != Esc && !CodeChar(ch)
    ensures ch !in Code(c)
  {
  }

  lemma {:induction false} CountColorize(c: Color, message: string, ch: char)
    requires ch != Esc && !CodeChar(ch)
    ensures Count(Colorize(c, message), ch) == Count(message, ch)
  {
    CodeLacks(c, ch);
    CodeLacks(Reset, ch);
    CountAbsent(Code(c), ch);
    CountAbsent(Code(Reset), ch);
    CountConcat(Code(c), message, ch);
    CountConcat(Code(c) + message, Code(Reset), ch);
  }

  /** The text after the bar: the `[current/max]` counter, the percentage
      and the carriage return. */
  function ProgressLabel(current: int, max: int, percent: int): (r: string)
    ensures forall x, y, z :: Decimal(x, current) && Decimal(y, max) && Decimal(z, percent) ==>
              r == "] [" + x + "/" + y + "] (" + z + "%)\r"
    ensures |r| > 0 && r[|r| - 1] == '\r'
    ensures FullChar !in r && EmptyChar !in r && '\n' !in r
  {
    var a := IntToString(current);
    var b := IntToString(max);
    var c := IntToString(percent);
    NumberIsPlain(current);
    NumberIsPlain(max);
    NumberIsPlain(percent);
    ShowsDecimals(a, b, c, current, max, percent);
    Label(a, b, c)
  }

  /** Any decimal notations of the three numbers are the ones rendered,
      since a number has only one. */
  lemma ShowsDecimals(a: string, b: string, c: string, current: int, max: int, percent: int)
    requires Decimal(a, current) && Decimal(b, max) && Decimal(c, percent)
    ensures forall x, y, z :: Decimal(x, current) && Decimal(y, max) && Decimal(z, percent) ==>
              "] [" + a + "/" + b + "] (" + c + "%)\r" == "] [" + x + "/" + y + "] (" + z + "%)\r"
  {
    forall x, y, z | Decimal(x, current) && Decimal(y, max) && Decimal(z, percent)
      ensures "] [" + a + "/" + b + "] (" + c + "%)\r" == "] [" + x + "/" + y + "] (" + z + "%)\r"
    {
      DecimalUnique(a, x, current);
      DecimalUnique(b, y, max);
      DecimalUnique(c, z, percent);
    }
  }

  /** The label around three plain numbers. */
  function Label(a: string, b: string, c: string): (r: string)
    requires FullChar !in a && EmptyChar !in a && '\n' !in a
    requires FullChar !in b && EmptyChar !in b && '\n' !in b
    requires FullChar !in c && EmptyChar !in c && '\n' !in c
    ensures |r| > 0 && r[|r| - 1] == '\r'
    ensures FullChar !in r && EmptyChar !in r && '\n' !in r
  {
    "] [" + a + "/" + b + "] (" + c + "%)\r"
  }

  /** A rendered integer holds neither bar character nor a line break. */
  lemma NumberIsPlain(n: int)
    ensures FullChar !in IntToString(n) && EmptyChar !in IntToString(n) && '\n' !in IntToString(n)
  {
    var s := IntToString(n);
    forall i | 0 <= i < |s|
      ensures s[i] == '-' || IsDigit(s[i])
    {
      if n < 0 && i > 0 {
        assert s[i] == s[1..][i - 1];
      }
    }
  }

  /** The progress line: `[`, the filled cells in blue, the empty cells in
      light gray, then the suffix. */
  function ProgressLine(current: int, max: int): (line: string)
    requires Drawable(current, max)
    ensures line == "[" + Colorize(Blue, Repeat(FullChar, Filled(current, max)))
                        + Colorize(LightGray, Repeat(EmptyChar, ProgressLength - Filled(current, max)))
                        + ProgressLabel(current, max, Percent(current, max))
    ensures var suffix := ProgressLabel(current, max, Percent(current, max));
            |line| > |suffix| && line[0] == '[' && line[|line| - |suffix|..] == suffix
    ensures Count(line, FullChar) == Filled(current, max)
    ensures Count(line, EmptyChar) == ProgressLength - Filled(current, max)
    ensures |line| > 0 && line[|line| - 1] == '\r'
    ensures '\n' !in line
  {
    Bar(Filled(current, max), ProgressLabel(current, max, Percent(current, max)))
  }

  /** `f` filled cells, the empty rest of the bar, then the label. */
  function Bar(f: nat, suffix: string): (line: string)
    requires f <= ProgressLength
    requires FullChar !in suffix && EmptyChar !in suffix && '\n' !in suffix
    requires |suffix| > 0 && suffix[|suffix| - 1] == '\r'
    ensures Count(line, FullChar) == f
    ensures Count(line, EmptyChar) == ProgressLength - f
    ensures |line| > 0 && line[|line| - 1] == '\r'
    ensures '\n' !in line
  {
    var full := Colorize(Blue, Repeat(FullChar, f));
    var empty := Colorize(LightGray, Repeat(EmptyChar, ProgressLength - f));
    assert '\n' !in full && '\n' !in empty by {
      CodeLacks(Blue, '\n');
      CodeLacks(LightGray, '\n');
      CodeLacks(Reset, '\n');
    }
    ProgressCounts(f, full, empty, suffix);
    "[" + full + empty + suffix
  }

  lemma {:induction false} BarCount(full: string, empty: string, suffix: string, ch: char)
    requires ch != '[' && ch !in suffix
    ensures Count("[" + full + empty + suffix, ch) == Count(full, ch) + Count(empty, ch)
  {
    CountConcat("[" + full + empty, suffix, ch);
    CountConcat("[" + full, empty, ch);
    CountConcat("[", full, ch);
    CountAbsent(suffix, ch);
    CountAbsent("[", ch);
  }

  lemma ProgressCounts(f: nat, full: string, empty: string, suffix: string)
    requires f <= ProgressLength
    requires full == Colorize(Blue, Repeat(FullChar, f))
    requires empty == Colorize(LightGray, Repeat(EmptyChar, ProgressLength - f))
    requires FullChar !in suffix && EmptyChar !in suffix
    ensures Count("[" + full + empty + suffix, FullChar) == f
    ensures Count("[" + full + empty + suffix, EmptyChar) == ProgressLength - f
  {
    BarCount(full, empty, suffix, FullChar);
    BarCount(full, empty, suffix, EmptyChar);
    RunCount(Blue, FullChar, f, FullChar);
    RunCount(Blue, FullChar, f, EmptyChar);
    RunCount(LightGray, EmptyChar, ProgressLength - f, FullChar);
    RunCount(LightGray, EmptyChar, ProgressLength - f, EmptyChar);
  }

  /** A coloured run of `n` copies of `r` holds `n` copies of `r` and no
      other character that codes lack. */
  lemma {:induction false} RunCount(c: Color, r: char, n: nat, ch: char)
    requires ch != Esc && !CodeChar(ch)
    ensures Count(Colorize(c, Repeat(r, n)), ch) == if r == ch then n else 0
  {
    CountColorize(c, Repeat(r, n), ch);
    CountRepeat(r, n, ch);
  }

  /** `progress($current, $max)`: the bar is echoed without a newline, so
      the next bar overwrites it, and the line is marked open. `None` is the
      error thrown by the division (a zero `max`) or by `str_repeat` (a
      filled count outside the bar); nothing is printed then. */
  function Progress(w: State, current: int, max: int): (r: Option<State>)
    ensures !w.isCli ==> r == Some(w)
    ensures w.isCli ==> (r.Some? <==> Drawable(current, max))
    ensures w.isCli && r.Some? ==> r.value.isCli && r.value.isProgress
    ensures w.isCli && r.Some? ==> r.value.output == w.output + [ProgressLine(current, max)]
    ensures r.Some? && Valid(w) ==> Valid(r.value)
  {
    if !w.isCli then Some(w)
    else if !Drawable(current, max) then None
    else
      var line := ProgressLine(current, max);
      assert LineOpen(w.output + [line]);
      Some(State(true, true, w.output + [line]))
  }

  /** The shutdown hook registered by a command-line writer: a newline when
      a progress line is still open. Afterwards the terminal line is
      closed. */
  function Shutdown(w: State): (r: State)
    ensures r.output == w.output + (if w.isCli && w.isProgress then ["\n"] else [])
    ensures Valid(w) ==> !LineOpen(r.output)
  {
    if w.isCli && w.isProgress then w.(output := w.output + ["\n"]) else w
  }

  /** Worked examples at the edges: one percent past the end still draws a
      full bar labelled 101%, a full cell past it throws, and so does a
      zero maximum. */
  lemma ExampleOvershoot(w: State)
    requires w.isCli
    ensures Drawable(101, 100) && Filled(101, 100) == ProgressLength && Percent(101, 100) == 101
    ensures !Drawable(61, 60) && Progress(w, 61, 60) == None
    ensures Progress(w, 1, 0) == None
  {
  }

  /** Worked example: halfway through sixty steps. */
  lemma ExampleHalfway()
    ensures Filled(30, 60) == 30 && ProgressLength - Filled(30, 60) == 30
    ensures Percent(30, 60) == 50
    ensures ProgressLabel(30, 60, Percent(30, 60)) == "] [30/60] (50%)\r"
    ensures Drawable(30, 60) && ProgressLine(30, 60)[|ProgressLine(30, 60)| - 16..] == "] [30/60] (50%)\r"
  {
  }
}
